=== FILE: README.md ===
# Split pane layout: the splitter engine, modelled in Dafny

SplitPaneLayout is an Android `ViewGroup` that splits its area between two
children with a draggable splitter. The repository holds two versions of the
widget, and each is modelled as its own module: an immutable state record
holding the widget's fields, plus one pure function per entry point.

- `SplitPane` (split_pane.dfy) models the Kotlin widget:
  - the splitter position is an `Int` pixel offset, where `Int.MIN_VALUE` means unset;
  - the percent is a `Float` fraction, where a negative value means unset;
  - `computeSplitterPosition` reconciles the two against the measured size and the pane limits;
  - it models the measure and layout size arithmetic;
  - it models the D-pad key step and the touch state machine (down, move, up), with its grab area, its dragging rectangle and its centre clamping;
  - it models the position, percent and minimum-pane-size setters.
- `LegacySplitPane` (legacy_split_pane.dfy) models the Java widget:
  - the pixel position and an integer percent from 0 to 100, where 0 means unset in both fields;
  - the `doMeasure` reconciliation and child sizes;
  - the `onLayout` rectangles for the two children and for the divider `curr`;
  - the `onTouchEvent` drag, which copies `curr` into `temp`, moves `temp`, and commits the centre of `temp`.
- Shared value types:
  - `Android` (android.dfy): `Orientation`, a `Rect` with the semantics of `android.graphics.Rect` (`contains`, `offset`, `centerX`/`centerY`, `width`/`height`), measure sizes, and touch actions.
  - `JvmInt` (jvm_int.dfy): the JVM integer and float-to-int arithmetic the widgets rely on:
    - the 32-bit range and wrap-around;
    - `/` that truncates toward zero;
    - `Math.round` of an exact quotient;
    - `Float.toInt`.
  - `Results` (results.dfy): the one configuration error, a child count other than two.
- `SplitPaneLemmas` and `LegacySplitPaneLemmas` state the properties that relate several entry points.

Floating-point values are modelled as exact reals or rationals. IEEE rounding of the percent fields is abstracted away.

Behaviours of the source a reader may not expect:
- The Kotlin release commits `clamp(pointer coordinate, min, max)`. It does not commit the centre of the dragging rectangle.
- When the Kotlin pixel position and percent are both set, the measure pass re-derives neither. A resize can therefore leave the percent stale.
- A Java press while a drag is already under way does not get ignored. It restarts `temp` from `curr`, and the drag goes on.
- The Java measure pass has no guard for a zero extent. The float division gives an infinity or NaN, and `Math.round` turns that into `Integer.MAX_VALUE`, `Integer.MIN_VALUE` or 0. `LegacySplitPane.PercentFromPixel` models this exactly.
- Neither widget clamps a negative pane size to zero. The sizes handed to the children are the raw differences.
- The Kotlin vertical grab area is widened by `slop / 2` on each side. The horizontal one is widened by `slop`.

## Model

Source paths are relative to the repository root.

| member | source | states |
|---|---|---|
| SplitPane.Clamp | split-pane-layout/src/main/java/com/mobidevelop/spl/widget/SplitPaneLayout.kt:559-565 | For a non-empty range, the result lies in [min, max] and is the point of the range nearest the value. For an empty range, it is min below min and max otherwise. |
| SplitPane.ClampReal | split-pane-layout/src/main/java/com/mobidevelop/spl/widget/SplitPaneLayout.kt:551-557 | Below min the result is min. Otherwise, above max it is max. A value in [min, max] is kept, so for a non-empty range the result lies in [min, max]. |
| SplitPane.MaxPosition | split-pane-layout/src/main/java/com/mobidevelop/spl/widget/SplitPaneLayout.kt:355-362 | The range [min, max] is non-empty iff the extent is at least twice the minimum, and every position in it leaves the second pane at least the minimum. |
| SplitPane.Between | split-pane-layout/src/main/java/com/mobidevelop/spl/widget/SplitPaneLayout.kt:567-569 | `value in min..max` holds iff clamping the value to [min, max] leaves it unchanged. |
| SplitPane.SplitterRect | split-pane-layout/src/main/java/com/mobidevelop/spl/widget/SplitPaneLayout.kt:176 | The splitter rectangle is centred on the position. Along the axis it spans `2 * (size / 2)`, starting at `position - size / 2`. Across the axis it spans the full measured size. The vertical analogue is at line 194. |
| SplitPane.TouchRect | split-pane-layout/src/main/java/com/mobidevelop/spl/widget/SplitPaneLayout.kt:177 | The grab area widens the splitter along the axis by `slop` (horizontal) or `slop / 2` (vertical, line 195) on each side. It keeps the cross span, and it contains the splitter when the slop is not negative. |
| SplitPane.ReconciledPosition | split-pane-layout/src/main/java/com/mobidevelop/spl/widget/SplitPaneLayout.kt:160-193 | Four cases. Both fields unset: the position goes to the middle (`extent / 2`). Only the percent set: the position comes from the percent. Only the position set: the percent comes from the position. Both set: nothing changes. |
| SplitPane.PositionFromPercent | split-pane-layout/src/main/java/com/mobidevelop/spl/widget/SplitPaneLayout.kt:164-169 | The position is `(extent * percent).toInt()` clamped to the limits. The percent is kept when no clamp was needed; otherwise it becomes the clamped position's exact share of the extent. |
| SplitPane.PercentFromPosition | split-pane-layout/src/main/java/com/mobidevelop/spl/widget/SplitPaneLayout.kt:170-175 | The position is clamped into [paneSizeMin, extent - paneSizeMin], and the percent is its exact share of the extent. |
| SplitPane.PercentOf | split-pane-layout/src/main/java/com/mobidevelop/spl/widget/SplitPaneLayout.kt:174 | `position.toFloat() / extent.toFloat()` times the extent gives back the position. |
| SplitPane.ComputeSplitterPosition | split-pane-layout/src/main/java/com/mobidevelop/spl/widget/SplitPaneLayout.kt:157-198 | With no measured size nothing changes. Otherwise the position and percent are the reconciled ones, and the splitter and grab rectangles follow the new position. No other field changes. |
| SplitPane.ChildSizes | split-pane-layout/src/main/java/com/mobidevelop/spl/widget/SplitPaneLayout.kt:205-214 | First child + `2 * (size / 2)` + second child == extent. The first child ends where the splitter starts, and both children get the full cross size. |
| SplitPane.OnMeasure | split-pane-layout/src/main/java/com/mobidevelop/spl/widget/SplitPaneLayout.kt:200-217 | A child count other than two is an error, and only then. A non-positive size records the size and skips the pass. Otherwise the pass reconciles, marks the widget measured, and sizes the children so that they and the splitter fill the extent. |
| SplitPane.Remeasure | split-pane-layout/src/main/java/com/mobidevelop/spl/widget/SplitPaneLayout.kt:384-391 | The forced pass at the current measured size fails iff the child count is not two. Without a measured size it records the size and skips. Otherwise it is the reconciling pass (`computeSplitterPosition`, then the measured flag), keeps the measured size, and sizes the children by `ChildSizes` at the reconciled position. |
| SplitPane.Layout | split-pane-layout/src/main/java/com/mobidevelop/spl/widget/SplitPaneLayout.kt:219-232 | In the widget's own coordinates, the first pane runs from 0 to the splitter and the second from the splitter to the far edge. The spans sum to the extent minus the splitter, and both panes span the full cross size. This is the corrected horizontal branch. |
| SplitPane.LayoutAsWritten | split-pane-layout/src/main/java/com/mobidevelop/spl/widget/SplitPaneLayout.kt:219-232 | As written, the first pane runs from 0 to `position - size / 2` and the second from `position + size / 2` to `right` (horizontal) or to `bottom - top` (vertical). Both span 0 to the cross size. |
| SplitPane.KeyDirection | split-pane-layout/src/main/java/com/mobidevelop/spl/widget/SplitPaneLayout.kt:240-258 | Left (horizontal) or up (vertical) moves toward the origin. Right or down moves away. Every other key, and the keys of the other axis, do nothing. |
| SplitPane.KeyStep | split-pane-layout/src/main/java/com/mobidevelop/spl/widget/SplitPaneLayout.kt:236-239 | The step is the splitter size, or with shift five times it wrapped to 32 bits, which equals five times the size whenever that fits in an `Int`. |
| SplitPane.OnKeyDown | split-pane-layout/src/main/java/com/mobidevelop/spl/widget/SplitPaneLayout.kt:234-266 | A key is handled iff it is a directional key along the axis. A handled key marks the percent unset, notifies with fromUser, and changes nothing but the position and percent. The position is the wrapped target (the position minus or plus the step) clamped to the limits, so it is the target itself whenever that lies within them. An unhandled key changes nothing. |
| SplitPane.HandleTouchDown | split-pane-layout/src/main/java/com/mobidevelop/spl/widget/SplitPaneLayout.kt:282-291 | A press inside the grab area starts a drag with the dragging rectangle on the splitter and the anchor at the press. Any other press changes nothing. Only the drag fields can change. |
| SplitPane.PullCenterInto | split-pane-layout/src/main/java/com/mobidevelop/spl/widget/SplitPaneLayout.kt:306-327 | The result is an along-axis shift of the rectangle whose centre is the old centre clamped to the limits; for an empty range it is the upper limit. The "take" flag holds iff the centre was already within the limits, and then the rectangle is unchanged. |
| SplitPane.HandleTouchMove | split-pane-layout/src/main/java/com/mobidevelop/spl/widget/SplitPaneLayout.kt:293-334 | Outside a drag, or before the pointer first leaves the grab area, nothing changes. After that, the dragging rectangle moves along the axis only, and its centre is the moved centre clamped to the limits, or the upper limit when the minimum exceeds half the extent. It follows the pointer exactly when no clamp was needed, and only then does the anchor move. The committed fields stay. |
| SplitPane.HandleTouchUp | split-pane-layout/src/main/java/com/mobidevelop/spl/widget/SplitPaneLayout.kt:336-353 | A release during a drag clears both flags, commits the pointer coordinate clamped to the limits, marks the percent unset and notifies with fromUser. Without a drag nothing happens. |
| SplitPane.OnTouchEvent | split-pane-layout/src/main/java/com/mobidevelop/spl/widget/SplitPaneLayout.kt:268-280 | A widget that is not movable ignores touches. On a movable one, a press is exactly handleTouchDown, a move exactly handleTouchMove and a release exactly handleTouchUp, so each keeps those handlers' frames. A press in the grab area starts a drag at the splitter with the anchor at the press, and any other press changes nothing. A move changes nothing outside a drag. A release during a drag notifies with fromUser, clears both flags, commits the pointer clamped to the limits and sets the percent to the unset marker. A release without a drag, and any other action, change nothing. Only a release notifies, and events other than a release leave the committed position, percent and rectangles alone. |
| SplitPane.SetSplitterPosition | split-pane-layout/src/main/java/com/mobidevelop/spl/widget/SplitPaneLayout.kt:462-469 | A negative value becomes 0 and any int is kept. The percent becomes the unset marker, nothing else changes, and the listener hears of a change not made by the user. |
| SplitPane.SetSplitterPositionPercent | split-pane-layout/src/main/java/com/mobidevelop/spl/widget/SplitPaneLayout.kt:474-481 | The position becomes unset. The percent becomes 0 below 0, 1 above 1, and the value itself inside [0, 1]. The change is notified as not from the user. |
| SplitPane.SetPaneSizeMin | split-pane-layout/src/main/java/com/mobidevelop/spl/widget/SplitPaneLayout.kt:497-508 | Before the first measure only the minimum changes. After it, the position setter runs, notifying, iff clamping the position to the new limits moves it. For a non-empty range that means iff the position lies outside the limits; for an empty one (a minimum above half the extent), always. The position becomes the old one clamped to the new limits, and then to at least 0, and the percent becomes the unset marker. Nothing but the position, the percent and the minimum ever changes. |
| SplitPaneLemmas.ReconcileIdempotent | split-pane-layout/src/main/java/com/mobidevelop/spl/widget/SplitPaneLayout.kt:157-198 | From a state with one representation set, a pass settles both, and a second pass at the same size changes nothing. |
| SplitPaneLemmas.ReconcileReachesFixpoint | split-pane-layout/src/main/java/com/mobidevelop/spl/widget/SplitPaneLayout.kt:157-198 | From any measured state with sane limits, two passes reach a settled state that further passes leave unchanged. |
| SplitPaneLemmas.SettledPassChangesNothing | split-pane-layout/src/main/java/com/mobidevelop/spl/widget/SplitPaneLayout.kt:157-198 | A pass over a settled state whose rectangles follow its position is the identity. |
| SplitPaneLemmas.ReconciledRepresentationsAgree | split-pane-layout/src/main/java/com/mobidevelop/spl/widget/SplitPaneLayout.kt:160-193 | With exactly one representation set, the pass puts the position within the limits, and the percent places it to within one pixel. |
| SplitPaneLemmas.PositionFromPercentAgrees | split-pane-layout/src/main/java/com/mobidevelop/spl/widget/SplitPaneLayout.kt:164-169 | The percent branch yields a position within the limits that its percent places to within one pixel. |
| SplitPaneLemmas.PercentFromPositionAgrees | split-pane-layout/src/main/java/com/mobidevelop/spl/widget/SplitPaneLayout.kt:170-175 | The position branch yields a position within the limits whose exact share of the extent is the percent. |
| SplitPaneLemmas.CommittedPositionSurvivesPass | split-pane-layout/src/main/java/com/mobidevelop/spl/widget/SplitPaneLayout.kt:170-176 | A position within the limits with the percent unset is kept by the pass. The percent becomes its share, and the splitter is centred on it. |
| SplitPaneLemmas.CommitSurvivesRemeasure | split-pane-layout/src/main/java/com/mobidevelop/spl/widget/SplitPaneLayout.kt:336-353 | The position a release commits lies within the limits, survives the measure pass the release forces, and has the splitter drawn centred on it. |
| SplitPaneLemmas.RemeasureKeepsCommittedPosition | split-pane-layout/src/main/java/com/mobidevelop/spl/widget/SplitPaneLayout.kt:384-390 | The forced measure pass at the current size keeps a committed position and derives its percent. |
| SplitPaneLemmas.KeyStepSurvivesRemeasure | split-pane-layout/src/main/java/com/mobidevelop/spl/widget/SplitPaneLayout.kt:234-266 | The position a handled key leaves survives the forced measure pass, with the percent derived from it. |
| SplitPaneLemmas.KeyStepDirection | split-pane-layout/src/main/java/com/mobidevelop/spl/widget/SplitPaneLayout.kt:236-258 | Without wrap-around, a key moves the splitter toward its side by at most one step (five splitter sizes with shift), never the other way. |
| SplitPaneLemmas.LayoutTilesView | split-pane-layout/src/main/java/com/mobidevelop/spl/widget/SplitPaneLayout.kt:200-232 | After a measure pass at the laid-out size, the panes tile the widget around the splitter, each as long as the size it was measured at. |
| SplitPaneLemmas.LayoutAsWrittenAgreesAtOrigin | split-pane-layout/src/main/java/com/mobidevelop/spl/widget/SplitPaneLayout.kt:219-232 | For a widget at its parent's left edge, the layout as written equals the corrected one. |
| SplitPaneLemmas.LayoutAsWrittenOverhangs | split-pane-layout/src/main/java/com/mobidevelop/spl/widget/SplitPaneLayout.kt:225 | As written, a horizontal widget not at its parent's left edge ends its second pane somewhere other than at its width. |
| SplitPaneLemmas.LayoutAsWrittenExample | split-pane-layout/src/main/java/com/mobidevelop/spl/widget/SplitPaneLayout.kt:225 | A widget 1000 wide at x = 100 with the splitter at 500 gets its second pane over [504, 1100) instead of [504, 1000). |
| SplitPaneLemmas.DragWithoutReleaseKeepsCommitted | split-pane-layout/src/main/java/com/mobidevelop/spl/widget/SplitPaneLayout.kt:268-334 | Any sequence of presses, moves and other actions without a release leaves the committed position, percent and rectangles unchanged. |
| SplitPaneLemmas.DragCentreStaysWithinLimits | split-pane-layout/src/main/java/com/mobidevelop/spl/widget/SplitPaneLayout.kt:293-334 | Once the splitter is moving, every sequence of moves keeps the dragging rectangle's centre within the pane limits. |
| SplitPaneLemmas.PercentOfPositionRestoresPosition | split-pane-layout/src/main/java/com/mobidevelop/spl/widget/SplitPaneLayout.kt:474-481 | Setting the percent to a position's share of the extent makes the next pass put the splitter back at that position. |
| SplitPaneLemmas.PositionSetterSurvivesRemeasure | split-pane-layout/src/main/java/com/mobidevelop/spl/widget/SplitPaneLayout.kt:462-469 | A position within the limits, given to the position setter and followed by the forced measure pass, stays where it was put, with the percent its share of the extent and the splitter centred on it. |
| SplitPaneLemmas.PaneSizeMinSurvivesRemeasure | split-pane-layout/src/main/java/com/mobidevelop/spl/widget/SplitPaneLayout.kt:497-508 | After the minimum setter on a measured widget with sane new limits, the next measure pass leaves the splitter at the old position clamped to the new limits, whether or not the setter had to move it. |
| SplitPaneLemmas.ShareRestoresPosition | split-pane-layout/src/main/java/com/mobidevelop/spl/widget/SplitPaneLayout.kt:164-168 | A position's share of the extent lies in [0, 1] and converts back to exactly that position. |
| SplitPaneLemmas.DragExample | split-pane-layout/src/main/java/com/mobidevelop/spl/widget/SplitPaneLayout.kt:200-353 | A default widget of 1000 x 600 measures the splitter at 500. A press at 500 and a move to 620 leave it there while the dragging rectangle moves to [616, 624). The release commits 620, and the next pass derives 0.62. |
| LegacySplitPane.PixelFromPercent | split-pane-layout/src/com/mobidevelop/widget/SplitPaneLayout.java:128 | The pixel is `Math.round(extent * percent / 100)`: the nearest int, ties going up, or `Integer.MAX_VALUE` / `Integer.MIN_VALUE` when the nearest integer lies beyond that end. It is not negative, and it lies within the extent for a percent up to 100. |
| LegacySplitPane.PercentFromPixel | split-pane-layout/src/com/mobidevelop/widget/SplitPaneLayout.java:130 | The result is the nearest whole percent of the extent, ties going up, saturated at the int end the nearest integer lies beyond, and it lies in [0, 100] for a pixel within the extent. A zero extent gives `Integer.MAX_VALUE`, `Integer.MIN_VALUE` or 0 by the pixel's sign. A zero pixel gives 0. |
| LegacySplitPane.Reconcile | split-pane-layout/src/com/mobidevelop/widget/SplitPaneLayout.java:127-133 | A zero pixel with a non-zero percent takes its pixel from the percent and keeps the percent. Otherwise the pixel stays and the percent is derived from it. The vertical analogue is at lines 146-152. |
| LegacySplitPane.ChildSpecs | split-pane-layout/src/com/mobidevelop/widget/SplitPaneLayout.java:134-142 | First child + `2 * (size / 2)` + second child == extent. The first child ends at `pixel - size / 2`, and both children get the full cross size. This is the corrected vertical branch of lines 154-162. |
| LegacySplitPane.ChildSpecsAsWritten | split-pane-layout/src/com/mobidevelop/widget/SplitPaneLayout.java:154-162 | As written, the second vertical child is measured with the height as its width. |
| LegacySplitPane.DoMeasure | split-pane-layout/src/com/mobidevelop/widget/SplitPaneLayout.java:124-166 | The fields are reconciled against the extent along the axis, and nothing else changes. The children and the divider fill the extent. The first child and the second child's along-axis size are the ones the code as written hands over. |
| LegacySplitPane.OnMeasure | split-pane-layout/src/com/mobidevelop/widget/SplitPaneLayout.java:97-102 | A child count other than two is an error, raised before anything is measured (check, lines 246-250). Otherwise the result is the measure pass. |
| LegacySplitPane.Layout | split-pane-layout/src/com/mobidevelop/widget/SplitPaneLayout.java:104-122 | After a pass at the new size, in the widget's own coordinates: the first child runs [0, p - s/2), the divider `curr` [p - s/2, p + s/2), and the second child [p + s/2, extent). The three are adjacent, their spans sum to the extent, and all three span the full cross size. |
| LegacySplitPane.LayoutAsWritten | split-pane-layout/src/com/mobidevelop/widget/SplitPaneLayout.java:104-122 | As written, along the axis the first child runs from `l` (or `t`) to `p - s/2`, `curr` runs from there to `p + s/2`, and the second child from there to `r` (or `b`). All three span the parent-relative cross edges. The measured fields are those of the pass at `r - l` by `b - t`. |
| LegacySplitPane.OnLayout | split-pane-layout/src/com/mobidevelop/widget/SplitPaneLayout.java:104-107 | A child count other than two is an error, raised before anything is laid out. Otherwise the result is the layout pass. |
| LegacySplitPane.TouchDown | split-pane-layout/src/com/mobidevelop/widget/SplitPaneLayout.java:186-204 | `temp` restarts from `curr`. Dragging holds iff it already held or `curr` contains the point. The anchor is the point either way, and nothing else changes. |
| LegacySplitPane.TouchMove | split-pane-layout/src/com/mobidevelop/widget/SplitPaneLayout.java:205-222 | Outside a drag nothing changes. During one, `temp` moves along the axis only, by the pointer's travel since the anchor, and the anchor follows the pointer. |
| LegacySplitPane.TouchUp | split-pane-layout/src/com/mobidevelop/widget/SplitPaneLayout.java:223-241 | A release during a drag ends it, commits `temp`'s leading edge plus half its span as the pixel (its centre when the span is not negative), and clears the percent. Without a drag nothing changes. |
| LegacySplitPane.OnTouchEvent | split-pane-layout/src/com/mobidevelop/widget/SplitPaneLayout.java:180-244 | A press restarts `temp` from `curr`, moves the anchor to the point, and drags iff a drag was under way or `curr` contains the point. A move during a drag shifts `temp` along the axis by the travel since the anchor and moves the anchor; outside a drag it changes nothing. A release during a drag ends it, commits `temp`'s leading edge plus half its span, and clears the percent; without a drag it changes nothing. Other actions change nothing, and no event moves `curr`. |
| LegacySplitPaneLemmas.RoundsToUnique | split-pane-layout/src/com/mobidevelop/widget/SplitPaneLayout.java:130 | Rounding to the nearest integer with ties going up has one answer. |
| LegacySplitPaneLemmas.PixelRoundsTo | split-pane-layout/src/com/mobidevelop/widget/SplitPaneLayout.java:128 | A whole percent of an int extent rounds to its pixel, even when that pixel saturates. |
| LegacySplitPaneLemmas.PercentRoundsTo | split-pane-layout/src/com/mobidevelop/widget/SplitPaneLayout.java:130 | A pixel within the extent rounds to its whole percent. |
| LegacySplitPaneLemmas.ReconcileSettles | split-pane-layout/src/com/mobidevelop/widget/SplitPaneLayout.java:127-133 | The first pass fixes the pixel, and a second pass reaches a state every later pass keeps. When the first pass kept the pixel, its result is already settled. |
| LegacySplitPaneLemmas.LayoutIdempotent | split-pane-layout/src/com/mobidevelop/widget/SplitPaneLayout.java:104-133 | Two layout passes at the same size give the same pixel, the same divider `curr` and the same child rectangles. |
| LegacySplitPaneLemmas.PercentRoundTrip | split-pane-layout/src/com/mobidevelop/widget/SplitPaneLayout.java:127-133 | On an extent of at least 100 pixels, percent to pixel to percent gives back the percent exactly. |
| LegacySplitPaneLemmas.PixelRoundTrip | split-pane-layout/src/com/mobidevelop/widget/SplitPaneLayout.java:127-133 | Pixel to percent to pixel comes back within half a percent of the extent plus half a pixel. |
| LegacySplitPaneLemmas.ChildSpecsAsWrittenDiffers | split-pane-layout/src/com/mobidevelop/widget/SplitPaneLayout.java:154-162 | The written sizes equal the corrected ones except the second vertical child's width, which differs iff the widget is not square. |
| LegacySplitPaneLemmas.ChildSpecsAsWrittenExample | split-pane-layout/src/com/mobidevelop/widget/SplitPaneLayout.java:160 | A vertical widget of 500 x 1000 measures its second child 1000 wide instead of 500. |
| LegacySplitPaneLemmas.LayoutAsWrittenAgreesAtOrigin | split-pane-layout/src/com/mobidevelop/widget/SplitPaneLayout.java:104-122 | At its parent's origin, the written layout equals the corrected one. |
| LegacySplitPaneLemmas.LayoutAsWrittenOverhangs | split-pane-layout/src/com/mobidevelop/widget/SplitPaneLayout.java:110-118 | Away from the origin along the axis, the written layout puts the second child's far edge past the widget's own extent. |
| LegacySplitPaneLemmas.LayoutAsWrittenExample | split-pane-layout/src/com/mobidevelop/widget/SplitPaneLayout.java:110-112 | A 1000-wide widget at x = 100 with the divider at [495, 505) lays out child 0 over [100, 495) and child 1 over [505, 1100). The corrected layout ends child 1 at 1000. |
| LegacySplitPaneLemmas.DragWithoutReleaseKeepsCommitted | split-pane-layout/src/com/mobidevelop/widget/SplitPaneLayout.java:186-222 | Presses and moves without a release leave the pixel, the percent and `curr` unchanged. |
| LegacySplitPaneLemmas.ReplayAppend | split-pane-layout/src/com/mobidevelop/widget/SplitPaneLayout.java:180-244 | Replaying two event sequences one after the other equals replaying their concatenation. |
| LegacySplitPaneLemmas.MovesFollowPointer | split-pane-layout/src/com/mobidevelop/widget/SplitPaneLayout.java:205-222 | During a drag, moves telescope: `temp` ends up shifted along the axis by the distance from the first anchor to the last pointer position, and the drag goes on. |
| LegacySplitPaneLemmas.DragCommitsPointerTravel | split-pane-layout/src/com/mobidevelop/widget/SplitPaneLayout.java:186-241 | A press on the divider, any moves, and a release commit the divider's centre moved by the pointer's travel from the press to the last move. The release position plays no part, and the percent is cleared. |
| LegacySplitPaneLemmas.DragExample | split-pane-layout/src/com/mobidevelop/widget/SplitPaneLayout.java:104-241 | Extent 1000, a 10-pixel divider and 50 percent give pixel 500 and `curr` [495, 505). A press at 500, a move to 620 and a release commit 620, and the next measure pass derives 62 percent. |

## Left out

- Attribute and style extraction is not modelled. This covers the Kotlin `extractAttributes` and the Java constructor's `TypedArray` code, and it depends on the Android resource system. Initial states are parameters or written out.
- Drawing is not modelled: `dispatchDraw`, the drawables, `Paint` and colours are rendering only.
- Framework side effects are not modelled: `invalidate`, `requestLayout`, `forceLayout`, haptic feedback, `Log`, and the child `measure`/`layout` calls. The model keeps only the integers handed to those calls.
- `remeasure()` is not called by the handlers. The lemmas compose a handler with `SplitPane.Remeasure` (a measure pass at the current size) instead.
- The listener call is reported as a `Notice` carrying the fromUser flag. The listener itself is outside the model.
- Neither the Kotlin `onTouchEvent` return value nor the `onKeyDown` fall-through to `super` is modelled: both are framework plumbing.
- `SavedState` and `Parcel` save and restore are not modelled: they are serialisation through the framework.
- The demo activities are not part of this model.
- The orientation is one of the two named values only. The Kotlin setter accepts any int, and the Java switches ignore unknown codes.
- The Kotlin `splitterSize`, `orientation`, `splitterTouchSlop` and drawable setters are not modelled. The `splitterDrawable`, `orientation` and `splitterSize` setters assign the field, run `check()` (an error for a child count other than two, lines 419, 443 and 455) and then `remeasure()`, which `SplitPane.Remeasure` models; `orientation` does so only when the value differs. `splitterTouchSlop` assigns and reruns `computeSplitterPosition` (line 491). `splitterDraggingDrawable` reruns nothing and only invalidates while dragging (lines 426-433).
- Pointer coordinates are ints: the `Float` coordinates of a `MotionEvent` are truncated toward zero by `event.x.toInt()` (Kotlin lines 270-271) and `(int) event.getX()` (Java lines 182-183) before any handler sees them, and that conversion is not modelled.
- IEEE float rounding is abstracted: `Float` values are exact reals, and `Math.round` / `toInt` act on the exact quotient.
- 32-bit overflow is modelled only in the Kotlin key step (`offset *= 5` and the addition, via `Wrap`). Every other sum of positions and sizes is unbounded, on the grounds that a widget's geometry stays far below 2^31.
- ACTION_CANCEL and the other actions are ignored, as in the source; neither widget handles them.
- SplitPaneLemmas.ReconciledRepresentationsAgree: requires an extent below `Int.MAX_VALUE` and limits with `0 <= paneSizeMin <= extent / 2`. It does not cover a minimum that exceeds half the extent, where the clamp range is empty.
- LegacySplitPane.OnLayout: lays out with the corrected `LegacySplitPane.Layout`, in the widget's own coordinates. Lines 111 and 117 give `curr` the parent-relative cross span `[t, b)` or `[l, r)`, and the press test at line 197 uses it. So a horizontal widget at t = 200 rejects a press at y = 100 in the source, while the model's `curr` spans `[0, height)` and accepts it. `LegacySplitPane.LayoutAsWritten` and its lemmas state the layout as written.
- LegacySplitPane.DoMeasure: sizes the second child with the corrected `ChildSpecs`, so a vertical widget's second child gets the width as its cross size where line 160 passes the height. Its first child and the second child's along-axis size equal the code as written (`ChildSpecsAsWritten`), and `LegacySplitPaneLemmas.ChildSpecsAsWrittenDiffers` states the difference.
- LegacySplitPaneLemmas.PercentRoundTrip: holds only for extents of at least 100 pixels. Below that, distinct percents share a pixel, so no exact round trip exists.

## Findings

| source | as written | input that shows it | evidently intended | confidence | as-written member | corrected member |
|---|---|---|---|---|---|---|
| split-pane-layout/src/main/java/com/mobidevelop/spl/widget/SplitPaneLayout.kt:225 | The second horizontal pane ends at `right`, the widget's right edge in its parent's coordinates. | A horizontal widget with left = 100 and right = 1100, splitter at 500 and size 8: the pane covers [504, 1100) inside a widget 1000 wide. | It should end at `width`, as the vertical branch does. | not executed; high | SplitPaneLemmas.LayoutAsWrittenOverhangs | SplitPane.Layout |
| split-pane-layout/src/com/mobidevelop/widget/SplitPaneLayout.java:160 | The second vertical child is measured with `height` as its width. | A vertical widget 500 wide and 1000 high: the child is measured 1000 wide. | It should be measured with `width`, as the first child is at line 155. | not executed; high | LegacySplitPaneLemmas.ChildSpecsAsWrittenExample | LegacySplitPane.ChildSpecs |
| split-pane-layout/src/com/mobidevelop/widget/SplitPaneLayout.java:110-118 | The children and `curr` are placed with the parent-relative `l, t, r, b` around a pixel that is relative to the widget. | A horizontal widget at l = 100, r = 1100 with the divider at 500: child 0 covers [100, 495) and child 1 covers [505, 1100). | Place them from 0 to `r - l` (and `b - t`) in the widget's own coordinates. | not executed; high | LegacySplitPaneLemmas.LayoutAsWrittenOverhangs | LegacySplitPane.Layout |

=== FILE: android.dfy ===
/** Framework value types both widgets use: the split orientation, integer
    rectangles with the semantics of android.graphics.Rect, the size handed to
    a child's measure call, and the pointer actions a MotionEvent carries. */
module Android {

  /** The axis along which the container is split. Horizontal puts the two
      panes side by side and moves the splitter along x. */
  datatype Orientation = Horizontal | Vertical {

    /** The axis across the split. */
    function Cross(): (c: Orientation)
      ensures c != this
    {
      match this
      case Horizontal => Vertical
      case Vertical => Horizontal
    }
  }

  /** Picks the coordinate that lies along the split axis. */
  function Along(o: Orientation, x: int, y: int): int
  {
    match o
    case Horizontal => x
    case Vertical => y
  }

  /** The rectangle [left, right) x [top, bottom), as android.graphics.Rect. */
  datatype Rect = Rect(left: int, top: int, right: int, bottom: int) {

    function Width(): int { right - left }

    function Height(): int { bottom - top }

    /** Rect.contains(x, y): an empty rectangle contains no point; the left
        and top edges are inside, the right and bottom edges are not. */
    predicate Contains(x: int, y: int)
    {
      left < right && top < bottom && left <= x < right && top <= y < bottom
    }

    /** Rect.offset(dx, dy): moves both edges of each axis. */
    function Offset(dx: int, dy: int): (r: Rect)
      ensures r.Width() == Width() && r.Height() == Height()
    {
      Rect(left + dx, top + dy, right + dx, bottom + dy)
    }

    /** A point lies in the rectangle iff the point moved by the same offset
        lies in the moved rectangle. */
    lemma OffsetCarriesPoints(dx: int, dy: int, x: int, y: int)
      ensures Contains(x, y) <==> Offset(dx, dy).Contains(x + dx, y + dy)
    {
    }

    /** Rect.centerX(): (left + right) >> 1, which rounds toward negative
        infinity exactly as Dafny's division by the positive 2 does. */
    function CenterX(): int { (left + right) / 2 }

    function CenterY(): int { (top + bottom) / 2 }

    /** Leading edge along the split axis. */
    function Start(o: Orientation): int
    {
      match o
      case Horizontal => left
      case Vertical => top
    }

    /** Trailing (exclusive) edge along the split axis. */
    function End(o: Orientation): int
    {
      match o
      case Horizontal => right
      case Vertical => bottom
    }

    /** Extent along the split axis. */
    function Span(o: Orientation): int { End(o) - Start(o) }

    /** Centre along the split axis. */
    function Center(o: Orientation): int
    {
      match o
      case Horizontal => CenterX()
      case Vertical => CenterY()
    }

    /** Offset along the split axis only; the cross axis stays put. */
    function Shift(o: Orientation, d: int): (r: Rect)
      ensures r.Center(o) == Center(o) + d
      ensures r.Span(o) == Span(o)
      ensures r.Start(o) == Start(o) + d
      ensures o.Horizontal? ==> r.top == top && r.bottom == bottom
      ensures o.Vertical? ==> r.left == left && r.right == right
    {
      match o
      case Horizontal => Offset(d, 0)
      case Vertical => Offset(0, d)
    }
  }

  /** The exact sizes passed to a child's measure call (both specs use
      MeasureSpec.EXACTLY in this widget). */
  datatype Size = Size(width: int, height: int) {
    function AlongSize(o: Orientation): int { Along(o, width, height) }
    function CrossSize(o: Orientation): int { AlongSize(o.Cross()) }
  }

  /** The MotionEvent actions the widgets react to, with the pointer position
      already converted to integers; every other action is OtherAction. */
  datatype TouchEvent =
    | Down(x: int, y: int)
    | Move(x: int, y: int)
    | Up(x: int, y: int)
    | OtherAction
}

=== FILE: jvm_int.dfy ===
/** The parts of JVM integer and float-to-integer arithmetic that the widgets
    depend on, written out over Dafny's unbounded integers and exact reals.
    IEEE float rounding is abstracted away: a float expression is modelled by
    the exact rational it approximates. */
module JvmInt {

  const INT_MIN: int := -0x8000_0000
  const INT_MAX: int := 0x7fff_ffff
  const MODULUS: int := 0x1_0000_0000

  /** The value fits a 32-bit Int / int. */
  predicate IsInt(x: int) { INT_MIN <= x <= INT_MAX }

  /** Two's-complement wrap-around of a 32-bit result. */
  function Wrap(x: int): (r: int)
    ensures IsInt(r)
    ensures (x - r) % MODULUS == 0
    ensures IsInt(x) ==> r == x
  {
    var k := (x - INT_MIN) / MODULUS;
    assert x - ((x - INT_MIN) % MODULUS + INT_MIN) == MODULUS * k;
    (x - INT_MIN) % MODULUS + INT_MIN
  }

  /** The integer `/` of Java and Kotlin for a positive divisor: the
      quotient is rounded toward zero, so the remainder takes the sign of the
      dividend and is smaller than the divisor. */
  function Quot(a: int, d: int): (q: int)
    requires d > 0
    ensures 0 <= a ==> 0 <= a - d * q < d
    ensures a < 0 ==> -d < a - d * q <= 0
  {
    if a >= 0 then a / d else -((-a) / d)
  }

  /** n / d rounds to r: r is the nearest integer, ties going up. */
  predicate RoundsTo(r: int, n: int, d: int)
  {
    d * (2 * r - 1) <= 2 * n < d * (2 * r + 1)
  }

  /** r is what Math.round makes of n / d: the nearest integer, ties going
      up, when that fits the int range, and otherwise the end of the range
      the nearest integer lies beyond. */
  predicate RoundsSaturated(r: int, n: int, d: int)
  {
    || (IsInt(r) && RoundsTo(r, n, d))
    || (r == INT_MAX && d * (2 * INT_MAX + 1) <= 2 * n)
    || (r == INT_MIN && 2 * n < d * (2 * INT_MIN - 1))
  }

  /** The nearest integer to n / d, ties going up: floor(n / d + 1/2). */
  function RoundHalfUp(n: int, d: int): (r: int)
    requires d > 0
    ensures RoundsTo(r, n, d)
  {
    var q := (2 * n + d) / (2 * d);
    assert 2 * d * q <= 2 * n + d < 2 * d * q + 2 * d;
    q
  }

  /** Clamps into the 32-bit range, as a float-to-int conversion saturates. */
  function Saturate(x: int): (r: int)
    ensures IsInt(r)
    ensures IsInt(x) ==> r == x
    ensures x < INT_MIN ==> r == INT_MIN
    ensures INT_MAX < x ==> r == INT_MAX
  {
    if x < INT_MIN then INT_MIN else if x > INT_MAX then INT_MAX else x
  }

  /** Math.round applied to the exact quotient n / d: the nearest int, ties
      going up, saturated at the ends of the int range. */
  function MathRound(n: int, d: int): (r: int)
    requires d > 0
    ensures IsInt(r)
    ensures INT_MIN < r < INT_MAX ==> d * (2 * r - 1) <= 2 * n < d * (2 * r + 1)
    ensures r == INT_MAX ==> d * (2 * INT_MAX - 1) <= 2 * n
    ensures r == INT_MIN ==> 2 * n < d * (2 * INT_MIN + 1)
    ensures RoundsSaturated(r, n, d)
  {
    SaturatedRounding(n, d);
    Saturate(RoundHalfUp(n, d))
  }

  /** A nearest integer beyond the int range lies beyond it by at least the
      rounding margin, so the saturated end is the one it passed. Stated
      apart from MathRound to keep the nonlinear facts out of its callers. */
  lemma SaturatedRounding(n: int, d: int)
    requires d > 0
    ensures RoundsSaturated(Saturate(RoundHalfUp(n, d)), n, d)
  {
  }

  /** Kotlin's Float.toInt() on an exact real: rounds toward zero and
      saturates at the ends of the Int range. */
  function FloatToInt(x: real): (r: int)
    ensures IsInt(r)
    ensures 0.0 <= x ==> 0 <= r && r as real <= x && (r == INT_MAX || x < r as real + 1.0)
    ensures x < 0.0 ==> r <= 0 && x <= r as real && (r == INT_MIN || (r - 1) as real < x)
  {
    if x >= 0.0 then Saturate(x.Floor) else Saturate(-((-x).Floor))
  }
}

=== FILE: legacy_split_pane.dfy ===
/** The splitter engine of the legacy Java SplitPaneLayout: an integer pixel
    position and an integer percent (0 to 100), where 0 in either field means
    "not set", a divider rectangle `curr` placed by the layout pass, and a
    drag that moves a copy `temp` of it until the pointer is released.
    Framework calls (measure, layout, invalidate, requestLayout) are not
    modelled; only the integers handed to them are. */
module LegacySplitPane {
  import opened Android
  import opened JvmInt
  import opened Results

  /** The widget's fields. */
  datatype State = State(
    orientation: Orientation,
    splitterSize: int,
    pixel: int,
    percent: int,
    dragging: bool,
    curr: Rect,
    temp: Rect,
    lastX: int,
    lastY: int)

  /** A measure pass: the state after reconciliation and the exact sizes
      handed to the two children's measure calls. */
  datatype Measured = Measured(state: State, first: Size, second: Size)

  /** A layout pass: the state (with `curr` placed) and the rectangles handed
      to the two children's layout calls. */
  datatype Laid = Laid(state: State, first: Rect, second: Rect)

  /** Math.round(extent * (percent / 100f)): the pixel that lies the given
      whole percent of the way along the extent. */
  function PixelFromPercent(percent: int, extent: int): (r: int)
    ensures IsInt(r)
    ensures INT_MIN < r < INT_MAX ==> RoundsTo(r, extent * percent, 100)
    ensures RoundsSaturated(r, extent * percent, 100)
    ensures 0 <= extent && 0 <= percent ==> 0 <= r
    ensures 0 <= percent <= 100 && 0 <= extent <= INT_MAX ==> r <= extent
  {
    PixelWithinExtent(percent, extent);
    MathRound(extent * percent, 100)
  }

  /** A whole percent of an extent is a pixel that is not negative, and lies
      within the extent when the percent is at most 100. */
  lemma PixelWithinExtent(percent: int, extent: int)
    ensures 0 <= extent && 0 <= percent ==> 0 <= MathRound(extent * percent, 100)
    ensures 0 <= percent <= 100 && 0 <= extent <= INT_MAX ==> MathRound(extent * percent, 100) <= extent
  {
    var r := RoundHalfUp(extent * percent, 100);
    if 0 <= extent && 0 <= percent {
      MulMonotone(extent, 0, percent);
      if r < 0 {
        MulMonotone(100, 2 * r + 1, -1);
      }
    }
    if 0 <= percent <= 100 && 0 <= extent <= INT_MAX {
      MulMonotone(extent, percent, 100);
      if r > extent {
        MulMonotone(100, 2 * extent + 1, 2 * r - 1);
      }
    }
  }

  /** Math.round((float) pixel / (float) extent * 100): the whole percent of
      the extent the pixel lies at. The float quotient by a zero extent is
      infinite (or NaN for a zero pixel), which Math.round turns into the
      largest or smallest int (or 0). */
  function PercentFromPixel(pixel: int, extent: int): (r: int)
    ensures IsInt(r)
    ensures 0 < extent && INT_MIN < r < INT_MAX ==> RoundsTo(r, 100 * pixel, extent)
    ensures extent < 0 && INT_MIN < r < INT_MAX ==> RoundsTo(r, -100 * pixel, -extent)
    ensures 0 < extent ==> RoundsSaturated(r, 100 * pixel, extent)
    ensures extent < 0 ==> RoundsSaturated(r, -100 * pixel, -extent)
    ensures extent == 0 ==> (0 < pixel ==> r == INT_MAX) && (pixel < 0 ==> r == INT_MIN) && (pixel == 0 ==> r == 0)
    ensures 0 < extent && 0 <= pixel <= extent ==> 0 <= r <= 100
    ensures pixel == 0 ==> r == 0
  {
    if extent > 0 then
      WholePercentInRange(pixel, extent);
      RoundOfZero(extent);
      MathRound(100 * pixel, extent)
    else if extent < 0 then
      RoundOfZero(-extent);
      MathRound(-100 * pixel, -extent)
    else if pixel > 0 then INT_MAX
    else if pixel < 0 then INT_MIN
    else 0
  }

  /** A pixel within the extent lies at a whole percent from 0 to 100. */
  lemma WholePercentInRange(pixel: int, extent: int)
    requires 0 < extent
    ensures 0 <= pixel <= extent ==> 0 <= MathRound(100 * pixel, extent) <= 100
  {
    if 0 <= pixel <= extent {
      var r := RoundHalfUp(100 * pixel, extent);
      if r < 0 {
        MulMonotone(extent, 2 * r + 1, -1);
      }
      if r > 100 {
        MulMonotone(extent, 201, 2 * r - 1);
        MulMonotone(extent, pixel, extent);
      }
    }
  }

  /** Zero over any positive divisor rounds to zero. */
  lemma RoundOfZero(d: int)
    requires 0 < d
    ensures MathRound(0, d) == 0
  {
    var r := RoundHalfUp(0, d);
    if r < 0 {
      MulMonotone(d, 2 * r + 1, -1);
    }
    if r > 0 {
      MulMonotone(d, 1, 2 * r - 1);
    }
  }

  /** Multiplying by a non-negative factor keeps the order. */
  lemma MulMonotone(a: int, b: int, c: int)
    requires 0 <= a && b <= c
    ensures a * b <= a * c
  {
    assert a * c - a * b == a * (c - b);
  }

  /** The reconciliation at the top of doMeasure over the extent along the
      axis: a zero pixel with a non-zero percent takes its pixel from the
      percent; in every other case the pixel stays and the percent is
      derived from it. */
  function Reconcile(pixel: int, percent: int, extent: int): (r: (int, int))
    ensures pixel == 0 && percent != 0 ==> r.1 == percent && r.0 == PixelFromPercent(percent, extent)
    ensures !(pixel == 0 && percent != 0) ==> r.0 == pixel && r.1 == PercentFromPixel(pixel, extent)
  {
    if pixel == 0 && percent != 0 then (PixelFromPercent(percent, extent), percent)
    else (pixel, PercentFromPixel(pixel, extent))
  }

  /** The child sizes of doMeasure exactly as written: in the vertical
      branch the second child is given the height as its width. */
  function ChildSpecsAsWritten(o: Orientation, pixel: int, splitterSize: int, width: int, height: int): (r: (Size, Size))
    ensures o.Vertical? ==> r.1.width == height
    ensures r.0.AlongSize(o) == pixel - Quot(splitterSize, 2)
    ensures r.1.AlongSize(o) == Along(o, width, height) - pixel - Quot(splitterSize, 2)
  {
    var half := Quot(splitterSize, 2);
    match o
    case Horizontal => (Size(pixel - half, height), Size(width - pixel - half, height))
    case Vertical => (Size(width, pixel - half), Size(height, height - pixel - half))
  }

  /** The child sizes of doMeasure with the second vertical child given the
      width across the axis, as the first is: the two children and the
      divider fill the extent along the axis, and both children get the
      full size across it. */
  function ChildSpecs(o: Orientation, pixel: int, splitterSize: int, width: int, height: int): (r: (Size, Size))
    ensures r.0.AlongSize(o) == pixel - Quot(splitterSize, 2)
    ensures r.0.AlongSize(o) + 2 * Quot(splitterSize, 2) + r.1.AlongSize(o) == Along(o, width, height)
    ensures r.0.CrossSize(o) == r.1.CrossSize(o) == Along(o.Cross(), width, height)
  {
    var half := Quot(splitterSize, 2);
    match o
    case Horizontal => (Size(pixel - half, height), Size(width - pixel - half, height))
    case Vertical => (Size(width, pixel - half), Size(width, height - pixel - half))
  }

  /** doMeasure(width, height): reconciles the two fields against the extent
      along the axis and sizes the children. */
  function DoMeasure(st: State, width: int, height: int): (r: Measured)
    ensures (r.state.pixel, r.state.percent) == Reconcile(st.pixel, st.percent, Along(st.orientation, width, height))
    ensures r.state.(pixel := st.pixel, percent := st.percent) == st
    ensures r.first.AlongSize(st.orientation) == r.state.pixel - Quot(st.splitterSize, 2)
    ensures r.first.AlongSize(st.orientation) + 2 * Quot(st.splitterSize, 2) + r.second.AlongSize(st.orientation)
      == Along(st.orientation, width, height)
    ensures r.first.CrossSize(st.orientation) == r.second.CrossSize(st.orientation)
      == Along(st.orientation.Cross(), width, height)
    ensures var written := ChildSpecsAsWritten(st.orientation, r.state.pixel, st.splitterSize, width, height);
      && r.first == written.0
      && r.second.AlongSize(st.orientation) == written.1.AlongSize(st.orientation)
  {
    var reconciled := Reconcile(st.pixel, st.percent, Along(st.orientation, width, height));
    var children := ChildSpecs(st.orientation, reconciled.0, st.splitterSize, width, height);
    Measured(st.(pixel := reconciled.0, percent := reconciled.1), children.0, children.1)
  }

  /** onMeasure with the sizes taken from the measure specs: the child count
      is checked before anything is measured. */
  function OnMeasure(st: State, childCount: nat, width: int, height: int): (r: Result<Measured>)
    ensures r.Err? <==> childCount != REQUIRED_CHILDREN
    ensures r.Err? ==> r.error == WrongChildCount(childCount)
    ensures r.Ok? ==> r.value == DoMeasure(st, width, height)
  {
    if childCount != REQUIRED_CHILDREN then Err(WrongChildCount(childCount)) else Ok(DoMeasure(st, width, height))
  }

  /** onLayout exactly as written: the children and the divider are placed
      with the parent-relative edges l, t, r, b around a pixel position that
      is relative to the widget itself. The first child, the divider and
      the second child still meet edge to edge along the axis, from the
      parent-relative near edge to the parent-relative far edge, and all
      three span from t to b (or l to r) across it. */
  function LayoutAsWritten(st: State, l: int, t: int, r: int, b: int): (out: Laid)
    ensures var o, p, half := st.orientation, out.state.pixel, Quot(st.splitterSize, 2);
      && out.first.Start(o) == Along(o, l, t)
      && out.first.End(o) == out.state.curr.Start(o) == p - half
      && out.state.curr.End(o) == out.second.Start(o) == p + half
      && out.second.End(o) == Along(o, r, b)
    ensures var o := st.orientation.Cross();
      && out.first.Start(o) == out.state.curr.Start(o) == out.second.Start(o) == Along(o, l, t)
      && out.first.End(o) == out.state.curr.End(o) == out.second.End(o) == Along(o, r, b)
    ensures out.state == DoMeasure(st, r - l, b - t).state.(curr := out.state.curr)
  {
    var m := DoMeasure(st, r - l, b - t).state;
    var p, half := m.pixel, Quot(m.splitterSize, 2);
    match m.orientation
    case Horizontal =>
      Laid(m.(curr := Rect(p - half, t, p + half, b)), Rect(l, t, p - half, b), Rect(p + half, t, r, b))
    case Vertical =>
      Laid(m.(curr := Rect(l, p - half, r, p + half)), Rect(l, t, r, p - half), Rect(l, p + half, r, b))
  }

  /** onLayout in the widget's own coordinates, where the pixel position
      lives: after a measure pass over the new size, the first child runs
      from 0 to the divider, the divider `curr` spans size / 2 on either
      side of the pixel, and the second child runs from the divider to the
      far edge; all three span the full size across the axis. */
  function Layout(st: State, l: int, t: int, r: int, b: int): (out: Laid)
    ensures var o, extent := st.orientation, Along(st.orientation, r - l, b - t);
      var p, half := out.state.pixel, Quot(st.splitterSize, 2);
      && out.first.Start(o) == 0
      && out.first.End(o) == out.state.curr.Start(o) == p - half
      && out.state.curr.End(o) == out.second.Start(o) == p + half
      && out.second.End(o) == extent
      && out.first.Span(o) + out.state.curr.Span(o) + out.second.Span(o) == extent
    ensures var o, cross := st.orientation.Cross(), Along(st.orientation.Cross(), r - l, b - t);
      && out.first.Start(o) == out.state.curr.Start(o) == out.second.Start(o) == 0
      && out.first.End(o) == out.state.curr.End(o) == out.second.End(o) == cross
    ensures out.state == DoMeasure(st, r - l, b - t).state.(curr := out.state.curr)
  {
    var width, height := r - l, b - t;
    var m := DoMeasure(st, width, height).state;
    var p, half := m.pixel, Quot(m.splitterSize, 2);
    match m.orientation
    case Horizontal =>
      Laid(m.(curr := Rect(p - half, 0, p + half, height)), Rect(0, 0, p - half, height), Rect(p + half, 0, width, height))
    case Vertical =>
      Laid(m.(curr := Rect(0, p - half, width, p + half)), Rect(0, 0, width, p - half), Rect(0, p + half, width, height))
  }

  /** onLayout: the child count is checked before anything is laid out. */
  function OnLayout(st: State, childCount: nat, l: int, t: int, r: int, b: int): (out: Result<Laid>)
    ensures out.Err? <==> childCount != REQUIRED_CHILDREN
    ensures out.Err? ==> out.error == WrongChildCount(childCount)
    ensures out.Ok? ==> out.value == Layout(st, l, t, r, b)
  {
    if childCount != REQUIRED_CHILDREN then Err(WrongChildCount(childCount)) else Ok(Layout(st, l, t, r, b))
  }

  /** ACTION_DOWN: the drag rectangle restarts from the divider, a drag
      starts when the divider holds the point (one already under way goes
      on), and the anchor moves to the point wherever it is. */
  function TouchDown(st: State, x: int, y: int): (r: State)
    ensures r.temp == st.curr
    ensures r.dragging <==> st.dragging || st.curr.Contains(x, y)
    ensures r.lastX == x && r.lastY == y
    ensures r.(temp := st.temp, dragging := st.dragging, lastX := st.lastX, lastY := st.lastY) == st
  {
    st.(temp := st.curr, dragging := st.dragging || st.curr.Contains(x, y), lastX := x, lastY := y)
  }

  /** ACTION_MOVE: while dragging, the drag rectangle follows the pointer
      along the axis only and the anchor moves to the pointer; otherwise
      nothing changes. */
  function TouchMove(st: State, x: int, y: int): (r: State)
    ensures !st.dragging ==> r == st
    ensures st.dragging ==>
      && r.temp == st.temp.Shift(st.orientation, Along(st.orientation, x - st.lastX, y - st.lastY))
      && r.lastX == x && r.lastY == y
    ensures r.(temp := st.temp, lastX := st.lastX, lastY := st.lastY) == st
  {
    if !st.dragging then st
    else
      var moved := match st.orientation
        case Horizontal => st.temp.Offset(x - st.lastX, 0)
        case Vertical => st.temp.Offset(0, y - st.lastY);
      st.(temp := moved, lastX := x, lastY := y)
  }

  /** ACTION_UP: ends a drag by committing the middle of the drag rectangle
      along the axis (its leading edge plus half its span, the half rounded
      toward zero) as the pixel position and clearing the percent; without
      a drag nothing changes. */
  function TouchUp(st: State): (r: State)
    ensures !st.dragging ==> r == st
    ensures st.dragging ==>
      && !r.dragging
      && r.percent == 0
      && r.pixel == st.temp.Start(st.orientation) + Quot(st.temp.Span(st.orientation), 2)
      && (0 <= st.temp.Span(st.orientation) ==> r.pixel == st.temp.Center(st.orientation))
      && r.(dragging := st.dragging, pixel := st.pixel, percent := st.percent) == st
  {
    if !st.dragging then st
    else
      var o := st.orientation;
      var span := st.temp.Span(o);
      assert 0 <= span ==> Quot(span, 2) == span / 2;
      st.(dragging := false, pixel := st.temp.Start(o) + Quot(span, 2), percent := 0)
  }

  /** onTouchEvent, pointer coordinates already truncated to ints; every
      other action is ignored. The event is always reported as consumed. */
  function OnTouchEvent(st: State, e: TouchEvent): (r: State)
    ensures !e.Up? ==> r.pixel == st.pixel && r.percent == st.percent
    ensures r.curr == st.curr && r.orientation == st.orientation && r.splitterSize == st.splitterSize
    ensures e.Up? && !st.dragging ==> r == st
    ensures e.Up? && st.dragging ==>
      && !r.dragging && r.percent == 0
      && r.pixel == st.temp.Start(st.orientation) + Quot(st.temp.Span(st.orientation), 2)
    ensures e.Down? ==>
      && r.temp == st.curr && r.lastX == e.x && r.lastY == e.y
      && (r.dragging <==> st.dragging || st.curr.Contains(e.x, e.y))
    ensures e.Move? && !st.dragging ==> r == st
    ensures e.Move? && st.dragging ==>
      && r.temp == st.temp.Shift(st.orientation, Along(st.orientation, e.x - st.lastX, e.y - st.lastY))
      && r.lastX == e.x && r.lastY == e.y && r.dragging
    ensures e.OtherAction? ==> r == st
  {
    match e
    case Down(x, y) => TouchDown(st, x, y)
    case Move(x, y) => TouchMove(st, x, y)
    case Up(_, _) => TouchUp(st)
    case OtherAction => st
  }

  /** The state after a sequence of touch events. */
  function Replay(st: State, events: seq<TouchEvent>): State
    decreases |events|
  {
    if events == [] then st else Replay(OnTouchEvent(st, events[0]), events[1..])
  }
}

=== FILE: legacy_split_pane_lemmas.dfy ===
/** Properties of the legacy Java widget: how the two position fields settle,
    how closely the pixel and percent representations agree, what the layout
    pass produces, and what a drag does and does not change. */
module LegacySplitPaneLemmas {
  import opened Android
  import opened JvmInt
  import opened Results
  import opened LegacySplitPane

  /** Rounding to the nearest integer has one answer. */
  lemma RoundsToUnique(r1: int, r2: int, n: int, d: int)
    requires 0 < d && RoundsTo(r1, n, d) && RoundsTo(r2, n, d)
    ensures r1 == r2
  {
    if r1 < r2 {
      MulMonotone(d, 2 * r1 + 1, 2 * r2 - 1);
    } else if r2 < r1 {
      MulMonotone(d, 2 * r2 + 1, 2 * r1 - 1);
    }
  }

  /** A whole percent of an extent within the int range rounds to its pixel
      even when that pixel is the largest int. */
  lemma PixelRoundsTo(percent: int, extent: int)
    requires 0 <= percent <= 100 && 0 <= extent <= INT_MAX
    ensures RoundsTo(PixelFromPercent(percent, extent), extent * percent, 100)
  {
    var p := PixelFromPercent(percent, extent);
    if p == INT_MAX {
      MulMonotone(extent, percent, 100);
    }
  }

  /** A pixel within the extent rounds to its whole percent. */
  lemma PercentRoundsTo(pixel: int, extent: int)
    requires 0 < extent && 0 <= pixel <= extent
    ensures RoundsTo(PercentFromPixel(pixel, extent), 100 * pixel, extent)
  {
  }

  /** Two layout passes at the same size lay out the same rectangles: the
      first pass fixes the pixel, so the second places the children and the
      divider exactly where the first did. */
  lemma LayoutIdempotent(st: State, l: int, t: int, r: int, b: int)
    ensures var once := Layout(st, l, t, r, b);
      var twice := Layout(once.state, l, t, r, b);
      && twice.state.pixel == once.state.pixel
      && twice.state.curr == once.state.curr
      && twice.first == once.first && twice.second == once.second
  {
  }

  /** The first measure pass settles the two fields: a second pass from its
      result reaches a state every further pass leaves alone, and when the
      first pass took the pixel branch its result is already settled. */
  lemma ReconcileSettles(pixel: int, percent: int, extent: int)
    ensures var once := Reconcile(pixel, percent, extent);
      var twice := Reconcile(once.0, once.1, extent);
      && Reconcile(twice.0, twice.1, extent) == twice
      && twice.0 == once.0
      && (!(pixel == 0 && percent != 0) ==> twice == once)
  {
    var once := Reconcile(pixel, percent, extent);
    if !(pixel == 0 && percent != 0) {
      assert once == (pixel, PercentFromPixel(pixel, extent));
      if pixel == 0 {
        assert once.1 == 0;
      }
    } else if once.0 == 0 {
      assert Reconcile(once.0, once.1, extent) == once;
    }
  }

  /** From a whole percent to a pixel and back: on an extent of at least 100
      pixels the percent is recovered exactly. */
  lemma PercentRoundTrip(percent: int, extent: int)
    requires 0 <= percent <= 100 && 100 <= extent <= INT_MAX
    ensures PercentFromPixel(PixelFromPercent(percent, extent), extent) == percent
  {
    var p := PixelFromPercent(percent, extent);
    PixelRoundsTo(percent, extent);
    PercentRoundsTo(p, extent);
    PercentSurvivesRounding(percent, extent, p);
    RoundsToUnique(PercentFromPixel(p, extent), percent, 100 * p, extent);
  }

  /** On an extent of at least 100 pixels, the pixel a whole percent rounds
      to is itself nearest to that percent: one percent is at least a
      pixel, so half a pixel of rounding cannot cross half a percent. */
  lemma PercentSurvivesRounding(percent: int, extent: int, p: int)
    requires 100 <= extent && RoundsTo(p, extent * percent, 100)
    ensures RoundsTo(percent, 100 * p, extent)
  {
    var ep := extent * percent;
    assert extent * (2 * percent - 1) == 2 * ep - extent;
    assert extent * (2 * percent + 1) == 2 * ep + extent;
    if extent == 100 {
      assert p == percent;
    }
  }

  /** From a pixel to a whole percent and back: the pixel comes back within
      half a percent of the extent plus half a pixel. */
  lemma PixelRoundTrip(pixel: int, extent: int)
    requires 0 < extent <= INT_MAX && 0 <= pixel <= extent
    ensures var back := PixelFromPercent(PercentFromPixel(pixel, extent), extent);
      && 200 * (back - pixel) <= extent + 100
      && 200 * (pixel - back) < extent + 100
  {
    var q := PercentFromPixel(pixel, extent);
    PercentRoundsTo(pixel, extent);
    PixelRoundsTo(q, extent);
    RoundingTwiceStaysClose(pixel, extent, q, PixelFromPercent(q, extent));
  }

  /** Rounding a pixel to a whole percent and that percent back to a pixel
      moves the pixel by at most half a percent of the extent plus half a
      pixel. */
  lemma RoundingTwiceStaysClose(pixel: int, extent: int, q: int, back: int)
    requires 0 < extent && RoundsTo(q, 100 * pixel, extent) && RoundsTo(back, extent * q, 100)
    ensures 200 * (back - pixel) <= extent + 100
    ensures 200 * (pixel - back) < extent + 100
  {
    var eq := extent * q;
    assert extent * (2 * q - 1) == 2 * eq - extent;
    assert extent * (2 * q + 1) == 2 * eq + extent;
  }

  /** The corrected child sizes differ from the written ones only in the
      width of the second vertical child, which the written code sets to
      the height. */
  lemma ChildSpecsAsWrittenDiffers(o: Orientation, pixel: int, splitterSize: int, width: int, height: int)
    ensures var written, fixed := ChildSpecsAsWritten(o, pixel, splitterSize, width, height),
                                   ChildSpecs(o, pixel, splitterSize, width, height);
      && written.0 == fixed.0
      && written.1.AlongSize(o) == fixed.1.AlongSize(o)
      && (written.1 == fixed.1 <==> o.Horizontal? || width == height)
  {
  }

  /** A vertical widget 500 wide and 1000 high: the written code measures the
      second child 1000 wide, twice the width of the widget. */
  lemma ChildSpecsAsWrittenExample()
    ensures ChildSpecsAsWritten(Vertical, 500, 10, 500, 1000).1 == Size(1000, 495)
    ensures ChildSpecs(Vertical, 500, 10, 500, 1000).1 == Size(500, 495)
  {
  }

  /** With the widget at its parent's origin the written layout is the
      corrected one. */
  lemma LayoutAsWrittenAgreesAtOrigin(st: State, r: int, b: int)
    ensures LayoutAsWritten(st, 0, 0, r, b) == Layout(st, 0, 0, r, b)
  {
  }

  /** Away from the origin the written layout places the second pane past
      the widget's own far edge along the axis. */
  lemma LayoutAsWrittenOverhangs(st: State, l: int, t: int, r: int, b: int)
    requires 0 < Along(st.orientation, l, t)
    ensures var o := st.orientation;
      LayoutAsWritten(st, l, t, r, b).second.End(o) > Along(o, r - l, b - t)
  {
  }

  /** A horizontal widget laid out at x = 100 in its parent, 1000 wide:
      the divider sits at 500 of the widget's own coordinates but the second
      pane reaches 1100. */
  lemma LayoutAsWrittenExample()
    ensures var st := State(Horizontal, 10, 0, 50, false, Rect(0, 0, 0, 0), Rect(0, 0, 0, 0), 0, 0);
      var written := LayoutAsWritten(st, 100, 0, 1100, 600);
      && written.state.curr == Rect(495, 0, 505, 600)
      && written.first == Rect(100, 0, 495, 600)
      && written.second == Rect(505, 0, 1100, 600)
      && Layout(st, 100, 0, 1100, 600).second == Rect(505, 0, 1000, 600)
  {
    assert PixelFromPercent(50, 1000) == 500;
  }

  predicate NoRelease(events: seq<TouchEvent>)
  {
    forall i :: 0 <= i < |events| ==> !events[i].Up?
  }

  predicate OnlyMoves(events: seq<TouchEvent>)
  {
    forall i :: 0 <= i < |events| ==> events[i].Move?
  }

  /** Presses and moves without a release never change the pixel, the
      percent or the divider. */
  lemma {:induction false} DragWithoutReleaseKeepsCommitted(st: State, events: seq<TouchEvent>)
    requires NoRelease(events)
    ensures var r := Replay(st, events);
      r.pixel == st.pixel && r.percent == st.percent && r.curr == st.curr
    decreases |events|
  {
    if events != [] {
      DragWithoutReleaseKeepsCommitted(OnTouchEvent(st, events[0]), events[1..]);
    }
  }

  /** Replaying two sequences one after the other is replaying their
      concatenation. */
  lemma {:induction false} ReplayAppend(st: State, a: seq<TouchEvent>, b: seq<TouchEvent>)
    ensures Replay(st, a + b) == Replay(Replay(st, a), b)
    decreases |a|
  {
    if a != [] {
      assert (a + b)[0] == a[0];
      assert (a + b)[1..] == a[1..] + b;
      ReplayAppend(OnTouchEvent(st, a[0]), a[1..], b);
    } else {
      assert a + b == b;
    }
  }

  /** During a drag the moves telescope: the drag rectangle ends up shifted
      along the axis by the distance from the first anchor to the last
      pointer position, and the drag goes on. */
  lemma {:induction false} MovesFollowPointer(st: State, events: seq<TouchEvent>)
    requires st.dragging && OnlyMoves(events)
    ensures var r := Replay(st, events); var o := st.orientation;
      && r.dragging && r.orientation == o
      && r.pixel == st.pixel && r.percent == st.percent
      && r.temp == st.temp.Shift(o, Along(o, r.lastX - st.lastX, r.lastY - st.lastY))
    decreases |events|
  {
    var o := st.orientation;
    if events == [] {
      assert st.temp.Shift(o, 0) == st.temp;
    } else {
      var next := OnTouchEvent(st, events[0]);
      assert next.temp == st.temp.Shift(o, Along(o, next.lastX - st.lastX, next.lastY - st.lastY));
      MovesFollowPointer(next, events[1..]);
    }
  }

  /** A press on the divider, any moves, and a release commit the divider's
      centre moved by the pointer's travel along the axis from the press to
      the last move; the release position itself plays no part, and the
      percent is cleared for the next measure pass to derive. */
  lemma DragCommitsPointerTravel(st: State, x: int, y: int, moves: seq<TouchEvent>, upX: int, upY: int)
      returns (held: State, r: State)
    requires st.curr.Contains(x, y) && OnlyMoves(moves)
    ensures held == Replay(st, [Down(x, y)] + moves)
    ensures r == Replay(st, [Down(x, y)] + moves + [Up(upX, upY)])
    ensures !r.dragging && r.percent == 0
    ensures r.pixel == st.curr.Center(st.orientation) + Along(st.orientation, held.lastX - x, held.lastY - y)
  {
    var o := st.orientation;
    var down := TouchDown(st, x, y);
    assert down.dragging && down.temp == st.curr && down.lastX == x && down.lastY == y;
    assert down.orientation == o;
    var pressed := [Down(x, y)] + moves;
    ReplayOne(st, Down(x, y));
    ReplayAppend(st, [Down(x, y)], moves);
    held := Replay(down, moves);
    MovesFollowPointer(down, moves);
    var d := Along(o, held.lastX - down.lastX, held.lastY - down.lastY);
    assert held.temp == down.temp.Shift(o, d);
    assert d == Along(o, held.lastX - x, held.lastY - y);
    ReplayOne(held, Up(upX, upY));
    ReplayAppend(st, pressed, [Up(upX, upY)]);
    r := TouchUp(held);
    assert held.temp.Span(o) == st.curr.Span(o) > 0;
    assert r.pixel == held.temp.Center(o);
  }

  /** Replaying one event is handling it. */
  lemma ReplayOne(st: State, e: TouchEvent)
    ensures Replay(st, [e]) == OnTouchEvent(st, e)
  {
    assert [e][1..] == [];
  }

  /** The worked example: a horizontal widget 1000 x 600 with a 10-pixel
      divider at 50 percent puts the divider at [495, 505); a press at 500,
      a move to 620 and a release commit 620, and the next measure pass
      derives 62 percent. */
  lemma DragExample()
    ensures var st := State(Horizontal, 10, 0, 50, false, Rect(0, 0, 0, 0), Rect(0, 0, 0, 0), 0, 0);
      var laid := OnLayout(st, REQUIRED_CHILDREN, 0, 0, 1000, 600);
      && laid.Ok?
      && laid.value.state.pixel == 500
      && laid.value.state.curr == Rect(495, 0, 505, 600)
      && var released := Replay(laid.value.state, [Down(500, 300), Move(620, 300), Up(620, 300)]);
         && released.pixel == 620 && released.percent == 0
         && var again := OnMeasure(released, REQUIRED_CHILDREN, 1000, 600);
            again.Ok? && again.value.state.pixel == 620 && again.value.state.percent == 62
  {
    var st := State(Horizontal, 10, 0, 50, false, Rect(0, 0, 0, 0), Rect(0, 0, 0, 0), 0, 0);
    var laid := ExampleLayout();
    assert OnLayout(st, REQUIRED_CHILDREN, 0, 0, 1000, 600).value.state == laid;
    var released := ExampleDrag(laid);
    ExampleRemeasure(released);
  }

  /** The measure pass after the drag of the worked example. */
  lemma ExampleRemeasure(released: State)
    requires released.orientation == Horizontal && released.pixel == 620 && released.percent == 0
    ensures var again := OnMeasure(released, REQUIRED_CHILDREN, 1000, 600);
      again.Ok? && again.value.state.pixel == 620 && again.value.state.percent == 62
  {
    assert PercentFromPixel(620, 1000) == 62;
    assert Reconcile(620, 0, 1000) == (620, 62);
  }

  /** The first layout pass of the worked example. */
  lemma ExampleLayout() returns (laid: State)
    ensures var st := State(Horizontal, 10, 0, 50, false, Rect(0, 0, 0, 0), Rect(0, 0, 0, 0), 0, 0);
      OnLayout(st, REQUIRED_CHILDREN, 0, 0, 1000, 600) == Ok(Layout(st, 0, 0, 1000, 600))
      && Layout(st, 0, 0, 1000, 600).state == laid
    ensures laid == State(Horizontal, 10, 500, 50, false, Rect(495, 0, 505, 600), Rect(0, 0, 0, 0), 0, 0)
  {
    var st := State(Horizontal, 10, 0, 50, false, Rect(0, 0, 0, 0), Rect(0, 0, 0, 0), 0, 0);
    assert PixelFromPercent(50, 1000) == 500;
    laid := Layout(st, 0, 0, 1000, 600).state;
  }

  /** The drag of the worked example: the press lands on the divider, the
      move shifts the drag rectangle by 120 pixels, and the release commits
      its centre. */
  lemma ExampleDrag(laid: State) returns (released: State)
    requires laid == State(Horizontal, 10, 500, 50, false, Rect(495, 0, 505, 600), Rect(0, 0, 0, 0), 0, 0)
    ensures released == Replay(laid, [Down(500, 300), Move(620, 300), Up(620, 300)])
    ensures released.orientation == Horizontal && released.pixel == 620 && released.percent == 0
  {
    ReplayThree(laid, Down(500, 300), Move(620, 300), Up(620, 300));
    var down := TouchDown(laid, 500, 300);
    assert down.dragging && down.temp == Rect(495, 0, 505, 600) && down.lastX == 500;
    var moved := TouchMove(down, 620, 300);
    assert moved.dragging && moved.temp == Rect(615, 0, 625, 600);
    released := TouchUp(moved);
  }

  /** Replaying three events is handling them one after the other. */
  lemma ReplayThree(st: State, a: TouchEvent, b: TouchEvent, c: TouchEvent)
    ensures Replay(st, [a, b, c]) == OnTouchEvent(OnTouchEvent(OnTouchEvent(st, a), b), c)
  {
    var s1 := OnTouchEvent(st, a);
    var s2 := OnTouchEvent(s1, b);
    assert [a, b, c][1..] == [b, c];
    assert Replay(st, [a, b, c]) == Replay(s1, [b, c]);
    assert [b, c][1..] == [c];
    assert Replay(s1, [b, c]) == Replay(s2, [c]);
    ReplayOne(s2, c);
  }
}

=== FILE: results.dfy ===
/** The one configuration error of both widgets, and the result of an
    operation that can raise it. */
module Results {

  /** The container does not hold exactly two children. */
  datatype ConfigError = WrongChildCount(count: nat)

  datatype Result<+T> = Ok(value: T) | Err(error: ConfigError)

  /** The number of children both widgets insist on. */
  const REQUIRED_CHILDREN: nat := 2
}

=== FILE: split_pane.dfy ===
/** The splitter engine of the Kotlin SplitPaneLayout: the state the widget
    keeps in its fields, and one pure function per entry point (measure pass,
    layout pass, key press, touch events, property setters). Framework calls
    (invalidate, remeasure, requestLayout, haptic feedback, logging) are not
    modelled; a listener call is reported as a Notice. */
module SplitPane {
  import opened Android
  import opened JvmInt
  import opened Results

  /** mSplitterPosition holds Int.MIN_VALUE while no pixel position is set. */
  const UNSET_POSITION: int := INT_MIN
  /** The value written to mSplitterPositionPercent to mark it unset; any
      negative percent counts as unset. */
  const UNSET_PERCENT: real := -1.0
  const DEFAULT_SPLITTER_SIZE: int := 8
  const DEFAULT_POSITION_PERCENT: real := 0.5
  /** A shifted key press moves the splitter this many splitter sizes. */
  const SHIFT_STEP_FACTOR: int := 5

  /** Android key codes of the directional pad. */
  const KEYCODE_DPAD_UP: int := 19
  const KEYCODE_DPAD_DOWN: int := 20
  const KEYCODE_DPAD_LEFT: int := 21
  const KEYCODE_DPAD_RIGHT: int := 22

  /** The widget's fields. `percent` is a fraction of the extent (0.5 is the
      middle); `paneSizeMin` is minSplitterPosition. */
  datatype State = State(
    orientation: Orientation,
    movable: bool,
    splitterSize: int,
    position: int,
    percent: real,
    touchSlop: int,
    paneSizeMin: int,
    measuredWidth: int,
    measuredHeight: int,
    splitterBounds: Rect,
    touchBounds: Rect,
    draggingBounds: Rect,
    lastTouchX: int,
    lastTouchY: int,
    dragging: bool,
    movingSplitter: bool,
    measured: bool)

  /** A listener call: none, or onSplitterPositionChanged with its fromUser flag. */
  datatype Notice = Quiet | Changed(fromUser: bool)

  /** The state after an entry point, and the listener call it made. */
  datatype Reaction = Reaction(state: State, notice: Notice)

  /** Sizes handed to the two children by a measure pass, or none when the
      measured size is degenerate. */
  datatype Measured = Skipped(state: State) | Sized(state: State, first: Size, second: Size)

  /** The rectangles handed to the two children by a layout pass. */
  datatype Panes = Panes(first: Rect, second: Rect)

  const EMPTY_RECT: Rect := Rect(0, 0, 0, 0)

  /** The fields of a widget constructed without attributes. */
  const INITIAL: State := State(
    Horizontal, true, DEFAULT_SPLITTER_SIZE, UNSET_POSITION, DEFAULT_POSITION_PERCENT,
    0, 0, 0, 0, EMPTY_RECT, EMPTY_RECT, EMPTY_RECT, 0, 0, false, false, false)

  /** Measured size along the split axis. */
  function Extent(st: State): int
  {
    Along(st.orientation, st.measuredWidth, st.measuredHeight)
  }

  /** Measured size across the split axis. */
  function CrossExtent(st: State): int
  {
    Along(st.orientation.Cross(), st.measuredWidth, st.measuredHeight)
  }

  /** maxSplitterPosition: the far pane keeps at least paneSizeMin. The
      limits [paneSizeMin, maxSplitterPosition] hold a position iff the
      minimum is at most half the extent. */
  function MaxPosition(st: State): (r: int)
    ensures st.paneSizeMin <= r <==> 2 * st.paneSizeMin <= Extent(st)
    ensures forall p :: Between(p, st.paneSizeMin, r) ==> st.paneSizeMin <= Extent(st) - p
  {
    Extent(st) - st.paneSizeMin
  }

  predicate HasMeasuredSize(st: State)
  {
    st.measuredWidth > 0 && st.measuredHeight > 0
  }

  /** The position and the sizes derived from it stay as they were. */
  predicate SameCommitted(a: State, b: State)
  {
    && a.position == b.position
    && a.percent == b.percent
    && a.splitterBounds == b.splitterBounds
    && a.touchBounds == b.touchBounds
  }

  function Dist(a: int, b: int): nat
  {
    if a <= b then b - a else a - b
  }

  /** Int.between: membership in the closed range min..max, which is
      exactly when clamping into that range leaves the value alone. */
  predicate Between(v: int, lo: int, hi: int)
    ensures Between(v, lo, hi) <==> Clamp(v, lo, hi) == v
  {
    lo <= v <= hi
  }

  /** clamp(value, min, max) on Int: for a non-empty range, the point of the
      range nearest to v; for an empty one, min below it and max otherwise. */
  function Clamp(v: int, lo: int, hi: int): (r: int)
    ensures lo <= hi ==> lo <= r <= hi
    ensures lo <= hi ==> forall y :: lo <= y <= hi ==> Dist(r, v) <= Dist(y, v)
    ensures hi < lo ==> r == (if v < lo then lo else hi)
  {
    if v < lo then lo else if v > hi then hi else v
  }

  /** clamp(value, min, max) on Float, over exact reals: a value below the
      range goes to min, one above it to max, one inside stays. */
  function ClampReal(v: real, lo: real, hi: real): (r: real)
    ensures lo <= hi ==> lo <= r <= hi
    ensures lo <= v <= hi ==> r == v
    ensures v < lo ==> r == lo
    ensures lo <= v && hi < v ==> r == hi
  {
    if v < lo then lo else if v > hi then hi else v
  }

  /** The splitter rectangle: `size / 2` on either side of the position along
      the axis, the full measured size across it. */
  function SplitterRect(o: Orientation, position: int, size: int, width: int, height: int): (r: Rect)
    ensures r.Center(o) == position
    ensures r.Start(o) == position - Quot(size, 2)
    ensures r.Span(o) == 2 * Quot(size, 2)
    ensures r.Start(o.Cross()) == 0 && r.End(o.Cross()) == Along(o.Cross(), width, height)
  {
    var half := Quot(size, 2);
    match o
    case Horizontal => Rect(position - half, 0, position + half, height)
    case Vertical => Rect(0, position - half, width, position + half)
  }

  /** The grab area: the splitter widened by the touch slop on both sides
      when horizontal, by half the slop on both sides when vertical. */
  function TouchRect(o: Orientation, bounds: Rect, slop: int): (r: Rect)
    ensures var widen := if o.Horizontal? then slop else Quot(slop, 2);
      r.Start(o) == bounds.Start(o) - widen && r.End(o) == bounds.End(o) + widen
    ensures r.Start(o.Cross()) == bounds.Start(o.Cross()) && r.End(o.Cross()) == bounds.End(o.Cross())
    ensures 0 <= slop ==> forall x, y :: bounds.Contains(x, y) ==> r.Contains(x, y)
  {
    match o
    case Horizontal => Rect(bounds.left - slop, bounds.top, bounds.right + slop, bounds.bottom)
    case Vertical => Rect(bounds.left, bounds.top - Quot(slop, 2), bounds.right, bounds.bottom + Quot(slop, 2))
  }

  /** Position and percent after computeSplitterPosition's reconciliation.
      An unset position with an unset percent goes to the middle; an unset
      position is otherwise derived from the percent and pulled within the
      limits (the percent then follows it only if a pull was needed); a set
      position with an unset percent is pulled within the limits and the
      percent derived from it; when both are set nothing changes. */
  function ReconciledPosition(st: State): (r: (int, real))
    requires HasMeasuredSize(st)
    ensures st.position == UNSET_POSITION && st.percent < 0.0 ==>
      r.0 == Extent(st) / 2 && r.1 == st.percent
    ensures st.position == UNSET_POSITION && 0.0 <= st.percent ==>
      r == PositionFromPercent(st.percent, Extent(st), st.paneSizeMin, MaxPosition(st))
    ensures st.position != UNSET_POSITION && st.percent < 0.0 ==>
      r == PercentFromPosition(st.position, Extent(st), st.paneSizeMin, MaxPosition(st))
    ensures st.position != UNSET_POSITION && 0.0 <= st.percent ==>
      r.0 == st.position && r.1 == st.percent
  {
    if st.position == UNSET_POSITION && st.percent < 0.0 then
      (Extent(st) / 2, st.percent)
    else if st.position == UNSET_POSITION then
      PositionFromPercent(st.percent, Extent(st), st.paneSizeMin, MaxPosition(st))
    else if st.percent < 0.0 then
      PercentFromPosition(st.position, Extent(st), st.paneSizeMin, MaxPosition(st))
    else
      (st.position, st.percent)
  }

  /** The branch of computeSplitterPosition for a set percent and an unset
      position: `(extent * percent).toInt()`, and only when that lies outside
      the limits is it pulled in and the percent re-derived. */
  function PositionFromPercent(percent: real, extent: int, lo: int, hi: int): (r: (int, real))
    requires extent > 0
    ensures var derived := FloatToInt(extent as real * percent);
      && r.0 == Clamp(derived, lo, hi)
      && (Between(derived, lo, hi) ==> r.1 == percent)
      && (!Between(derived, lo, hi) ==> IsShareOf(r.1, r.0, extent))
  {
    var p := FloatToInt(extent as real * percent);
    if Between(p, lo, hi) then (p, percent)
    else
      var c := Clamp(p, lo, hi);
      (c, PercentOf(c, extent))
  }

  /** The branch of computeSplitterPosition for a set position and an unset
      percent: the position is pulled within the limits if it lies outside
      them, and the percent is derived from it. */
  function PercentFromPosition(position: int, extent: int, lo: int, hi: int): (r: (int, real))
    requires extent > 0
    ensures r.0 == Clamp(position, lo, hi)
    ensures IsShareOf(r.1, r.0, extent)
  {
    var c := if Between(position, lo, hi) then position else Clamp(position, lo, hi);
    (c, PercentOf(c, extent))
  }

  /** The percent is the position's share of the extent. */
  predicate IsShareOf(percent: real, position: int, extent: int)
  {
    percent * extent as real == position as real
  }

  /** `position.toFloat() / extent.toFloat()`, over exact reals. */
  function PercentOf(position: int, extent: int): (r: real)
    requires extent > 0
    ensures IsShareOf(r, position, extent)
  {
    position as real / extent as real
  }

  /** The splitter and grab rectangles are the ones the position gives. */
  predicate BoundsFollowPosition(st: State)
  {
    && st.splitterBounds == SplitterRect(st.orientation, st.position, st.splitterSize, st.measuredWidth, st.measuredHeight)
    && st.touchBounds == TouchRect(st.orientation, st.splitterBounds, st.touchSlop)
  }

  /** computeSplitterPosition: nothing happens until both measured sizes
      are positive; then the position and percent are reconciled and the
      splitter and touch rectangles are derived from the position. */
  function ComputeSplitterPosition(st: State): (r: State)
    ensures !HasMeasuredSize(st) ==> r == st
    ensures HasMeasuredSize(st) ==> (r.position, r.percent) == ReconciledPosition(st)
    ensures HasMeasuredSize(st) ==> BoundsFollowPosition(r)
    ensures HasMeasuredSize(st) ==>
      && r.splitterBounds.Center(r.orientation) == r.position
      && r.splitterBounds.Span(r.orientation) == 2 * Quot(r.splitterSize, 2)
      && r.splitterBounds.Start(r.orientation.Cross()) == 0
      && r.splitterBounds.End(r.orientation.Cross()) == CrossExtent(r)
    ensures HasMeasuredSize(st) && 0 <= st.touchSlop ==>
      forall x, y :: r.splitterBounds.Contains(x, y) ==> r.touchBounds.Contains(x, y)
    ensures r.(position := st.position, percent := st.percent,
               splitterBounds := st.splitterBounds, touchBounds := st.touchBounds) == st
  {
    if !HasMeasuredSize(st) then st
    else
      var reconciled := ReconciledPosition(st);
      var bounds := SplitterRect(st.orientation, reconciled.0, st.splitterSize, st.measuredWidth, st.measuredHeight);
      st.(position := reconciled.0, percent := reconciled.1,
          splitterBounds := bounds, touchBounds := TouchRect(st.orientation, bounds, st.touchSlop))
  }

  /** Child sizes of onMeasure: the first pane ends where the splitter
      begins, the second takes what is left after the splitter. */
  function ChildSizes(o: Orientation, position: int, splitterSize: int, width: int, height: int): (r: (Size, Size))
    ensures r.0.AlongSize(o) + 2 * Quot(splitterSize, 2) + r.1.AlongSize(o) == Along(o, width, height)
    ensures r.0.AlongSize(o) == position - Quot(splitterSize, 2)
    ensures r.0.CrossSize(o) == r.1.CrossSize(o) == Along(o.Cross(), width, height)
  {
    var half := Quot(splitterSize, 2);
    match o
    case Horizontal => (Size(position - half, height), Size(width - half - position, height))
    case Vertical => (Size(width, position - half), Size(width, height - half - position))
  }

  /** onMeasure with the measured size already chosen by the framework:
      the child count is checked first; a non-positive size skips the pass;
      otherwise the position is reconciled and the children are sized. */
  function OnMeasure(st: State, childCount: nat, width: int, height: int): (r: Result<Measured>)
    ensures r.Err? <==> childCount != REQUIRED_CHILDREN
    ensures r.Err? ==> r.error == WrongChildCount(childCount)
    ensures r.Ok? && (width <= 0 || height <= 0) ==>
      r.value == Skipped(st.(measuredWidth := width, measuredHeight := height))
    ensures r.Ok? && 0 < width && 0 < height ==>
      && r.value.Sized?
      && r.value.state.measured
      && r.value.state == ComputeSplitterPosition(st.(measuredWidth := width, measuredHeight := height)).(measured := true)
      && r.value.first.AlongSize(st.orientation) + r.value.state.splitterBounds.Span(st.orientation)
         + r.value.second.AlongSize(st.orientation) == Along(st.orientation, width, height)
      && r.value.first.AlongSize(st.orientation) == r.value.state.splitterBounds.Start(st.orientation)
      && r.value.first.CrossSize(st.orientation) == Along(st.orientation.Cross(), width, height)
      && r.value.second.CrossSize(st.orientation) == Along(st.orientation.Cross(), width, height)
  {
    if childCount != REQUIRED_CHILDREN then Err(WrongChildCount(childCount))
    else
      var sized := st.(measuredWidth := width, measuredHeight := height);
      if width <= 0 || height <= 0 then Ok(Skipped(sized))
      else
        var next := ComputeSplitterPosition(sized);
        var children := ChildSizes(next.orientation, next.position, next.splitterSize, width, height);
        Ok(Sized(next.(measured := true), children.0, children.1))
  }

  /** The measure pass remeasure() forces with the current measured size:
      the size stays, a widget without a positive size is left exactly as
      it was, and one with a positive size is sized again. */
  function Remeasure(st: State, childCount: nat): (r: Result<Measured>)
    ensures r.Err? <==> childCount != REQUIRED_CHILDREN
    ensures r.Ok? && !HasMeasuredSize(st) ==> r.value == Skipped(st)
    ensures r.Ok? && HasMeasuredSize(st) ==>
      && r.value.Sized? && r.value.state.measured
      && r.value.state.measuredWidth == st.measuredWidth
      && r.value.state.measuredHeight == st.measuredHeight
    ensures r.Ok? && HasMeasuredSize(st) ==>
      && r.value.state == ComputeSplitterPosition(st).(measured := true)
      && (r.value.first, r.value.second)
         == ChildSizes(st.orientation, r.value.state.position, st.splitterSize, st.measuredWidth, st.measuredHeight)
  {
    assert st.(measuredWidth := st.measuredWidth, measuredHeight := st.measuredHeight) == st;
    OnMeasure(st, childCount, st.measuredWidth, st.measuredHeight)
  }

  /** onLayout exactly as written: the horizontal branch ends the second
      child at the parent-relative `right` instead of at the width. The
      panes still meet the splitter on either side, and span the full size
      across the axis. */
  function LayoutAsWritten(st: State, left: int, top: int, right: int, bottom: int): (r: Panes)
    ensures var o := st.orientation;
      && r.first.Start(o) == 0
      && r.first.End(o) == st.position - Quot(st.splitterSize, 2)
      && r.second.Start(o) == st.position + Quot(st.splitterSize, 2)
      && r.second.End(o) == Along(o, right, bottom - top)
    ensures var o, cross := st.orientation.Cross(), Along(st.orientation.Cross(), right - left, bottom - top);
      && r.first.Start(o) == 0 && r.first.End(o) == cross
      && r.second.Start(o) == 0 && r.second.End(o) == cross
  {
    var width, height := right - left, bottom - top;
    var half := Quot(st.splitterSize, 2);
    match st.orientation
    case Horizontal =>
      Panes(Rect(0, 0, st.position - half, height), Rect(st.position + half, 0, right, height))
    case Vertical =>
      Panes(Rect(0, 0, width, st.position - half), Rect(0, st.position + half, width, height))
  }

  /** onLayout with the second horizontal child ending at the width, as the
      vertical branch does: the panes sit in the widget's own coordinates,
      the first from 0 to the splitter, the second from the splitter to the
      far edge, both spanning the full size across the axis. */
  function Layout(st: State, left: int, top: int, right: int, bottom: int): (r: Panes)
    ensures var o, size := st.orientation, Along(st.orientation, right - left, bottom - top);
      && r.first.Start(o) == 0
      && r.first.End(o) == st.position - Quot(st.splitterSize, 2)
      && r.second.Start(o) == st.position + Quot(st.splitterSize, 2)
      && r.second.End(o) == size
      && r.first.Span(o) + 2 * Quot(st.splitterSize, 2) + r.second.Span(o) == size
    ensures var o, cross := st.orientation.Cross(), Along(st.orientation.Cross(), right - left, bottom - top);
      && r.first.Start(o) == 0 && r.first.End(o) == cross
      && r.second.Start(o) == 0 && r.second.End(o) == cross
  {
    var width, height := right - left, bottom - top;
    var half := Quot(st.splitterSize, 2);
    match st.orientation
    case Horizontal =>
      Panes(Rect(0, 0, st.position - half, height), Rect(st.position + half, 0, width, height))
    case Vertical =>
      Panes(Rect(0, 0, width, st.position - half), Rect(0, st.position + half, width, height))
  }

  /** -1 for the key that moves the splitter toward the origin, +1 for the
      key that moves it away, 0 for every key the orientation ignores. */
  function KeyDirection(o: Orientation, keyCode: int): (d: int)
    ensures d == -1 <==> (o.Horizontal? && keyCode == KEYCODE_DPAD_LEFT) || (o.Vertical? && keyCode == KEYCODE_DPAD_UP)
    ensures d == 1 <==> (o.Horizontal? && keyCode == KEYCODE_DPAD_RIGHT) || (o.Vertical? && keyCode == KEYCODE_DPAD_DOWN)
    ensures d == -1 || d == 0 || d == 1
  {
    match o
    case Horizontal =>
      if keyCode == KEYCODE_DPAD_LEFT then -1 else if keyCode == KEYCODE_DPAD_RIGHT then 1 else 0
    case Vertical =>
      if keyCode == KEYCODE_DPAD_UP then -1 else if keyCode == KEYCODE_DPAD_DOWN then 1 else 0
  }

  /** The distance a key press moves the splitter: one splitter size, five
      with shift held (a 32-bit multiplication). */
  function KeyStep(splitterSize: int, shiftPressed: bool): (r: int)
    ensures !shiftPressed ==> r == splitterSize
    ensures shiftPressed ==> IsInt(r) && (splitterSize * SHIFT_STEP_FACTOR - r) % MODULUS == 0
    ensures shiftPressed && IsInt(splitterSize * SHIFT_STEP_FACTOR) ==> r == splitterSize * SHIFT_STEP_FACTOR
  {
    if shiftPressed then Wrap(splitterSize * SHIFT_STEP_FACTOR) else splitterSize
  }

  /** onKeyDown: a directional key along the split axis moves the position
      by the key step (32-bit arithmetic), pulls it within the limits and
      marks the percent unset; every other key leaves the widget alone and
      is passed on. */
  function OnKeyDown(st: State, keyCode: int, shiftPressed: bool): (r: Reaction)
    ensures r.notice != Quiet <==> KeyDirection(st.orientation, keyCode) != 0
    ensures r.notice == Quiet ==> r.state == st
    ensures r.notice != Quiet ==>
      && r.notice == Changed(true)
      && r.state.percent == UNSET_PERCENT < 0.0
      && (st.paneSizeMin <= MaxPosition(st) ==> Between(r.state.position, st.paneSizeMin, MaxPosition(st)))
      && r.state.(position := st.position, percent := st.percent) == st
    ensures r.notice != Quiet ==>
      var step := KeyStep(st.splitterSize, shiftPressed);
      var target := if KeyDirection(st.orientation, keyCode) < 0 then Wrap(st.position - step) else Wrap(st.position + step);
      && r.state.position == Clamp(target, st.paneSizeMin, MaxPosition(st))
      && (Between(target, st.paneSizeMin, MaxPosition(st)) ==> r.state.position == target)
  {
    var direction := KeyDirection(st.orientation, keyCode);
    if direction == 0 then Reaction(st, Quiet)
    else
      var step := KeyStep(st.splitterSize, shiftPressed);
      var target := if direction < 0 then Wrap(st.position - step) else Wrap(st.position + step);
      Reaction(st.(position := Clamp(target, st.paneSizeMin, MaxPosition(st)), percent := UNSET_PERCENT), Changed(true))
  }

  /** handleTouchDown: a press inside the grab area starts a drag with the
      dragging rectangle on the splitter and the anchor at the press; any
      other press is ignored. The moving flag is left as it was. */
  function HandleTouchDown(st: State, x: int, y: int): (r: State)
    ensures st.touchBounds.Contains(x, y) ==>
      r.dragging && r.draggingBounds == st.splitterBounds && r.lastTouchX == x && r.lastTouchY == y
    ensures !st.touchBounds.Contains(x, y) ==> r == st
    ensures r.(dragging := st.dragging, draggingBounds := st.draggingBounds,
               lastTouchX := st.lastTouchX, lastTouchY := st.lastTouchY) == st
  {
    if st.touchBounds.Contains(x, y) then
      st.(dragging := true, draggingBounds := st.splitterBounds, lastTouchX := x, lastTouchY := y)
    else st
  }

  /** Pulls the centre of a rectangle along the axis into [lo, hi], first up
      to lo and then down to hi; the flag says whether no pull was needed. */
  function PullCenterInto(b: Rect, o: Orientation, lo: int, hi: int): (r: (Rect, bool))
    ensures lo <= hi ==> Between(r.0.Center(o), lo, hi)
    ensures lo <= hi ==> r.0.Center(o) == Clamp(b.Center(o), lo, hi)
    ensures hi < lo ==> r.0.Center(o) == hi
    ensures r.1 <==> Between(b.Center(o), lo, hi)
    ensures r.1 ==> r.0 == b
    ensures r.0 == b.Shift(o, r.0.Center(o) - b.Center(o))
  {
    var c := b.Center(o);
    var raised := if c < lo then b.Shift(o, lo - c) else b;
    var c' := raised.Center(o);
    var lowered := if c' > hi then raised.Shift(o, hi - c') else raised;
    (lowered, !(c < lo) && !(c' > hi))
  }

  /** handleTouchMove: ignored unless dragging; until the pointer first
      leaves the grab area nothing moves; after that the dragging rectangle
      follows the pointer along the axis with its centre pulled within the
      limits, and the anchor follows the pointer only when no pull was needed. */
  function HandleTouchMove(st: State, x: int, y: int): (r: State)
    ensures !st.dragging ==> r == st
    ensures st.dragging && !st.movingSplitter && st.touchBounds.Contains(x, y) ==> r == st
    ensures st.dragging && (st.movingSplitter || !st.touchBounds.Contains(x, y)) ==>
      var o := st.orientation;
      var moved := st.draggingBounds.Shift(o, Along(o, x - st.lastTouchX, y - st.lastTouchY));
      && r.movingSplitter
      && (st.paneSizeMin <= MaxPosition(st) ==> Between(r.draggingBounds.Center(o), st.paneSizeMin, MaxPosition(st)))
      && (st.paneSizeMin <= MaxPosition(st) ==>
            r.draggingBounds.Center(o) == Clamp(moved.Center(o), st.paneSizeMin, MaxPosition(st)))
      && (MaxPosition(st) < st.paneSizeMin ==> r.draggingBounds.Center(o) == MaxPosition(st))
      && r.draggingBounds == st.draggingBounds.Shift(o, r.draggingBounds.Center(o) - st.draggingBounds.Center(o))
      && (Between(moved.Center(o), st.paneSizeMin, MaxPosition(st)) ==>
            r.draggingBounds == moved && r.lastTouchX == x && r.lastTouchY == y)
      && (!Between(moved.Center(o), st.paneSizeMin, MaxPosition(st)) ==>
            r.lastTouchX == st.lastTouchX && r.lastTouchY == st.lastTouchY)
    ensures r.(draggingBounds := st.draggingBounds, lastTouchX := st.lastTouchX,
               lastTouchY := st.lastTouchY, movingSplitter := st.movingSplitter) == st
  {
    if !st.dragging then st
    else if !st.movingSplitter && st.touchBounds.Contains(x, y) then st
    else
      var o := st.orientation;
      var moved := st.draggingBounds.Shift(o, Along(o, x - st.lastTouchX, y - st.lastTouchY));
      var pulled := PullCenterInto(moved, o, st.paneSizeMin, MaxPosition(st));
      st.(movingSplitter := true, draggingBounds := pulled.0,
          lastTouchX := if pulled.1 then x else st.lastTouchX,
          lastTouchY := if pulled.1 then y else st.lastTouchY)
  }

  /** handleTouchUp: ends a drag by committing the pointer coordinate along
      the axis, pulled within the limits, as the new position, marking the
      percent unset and notifying the listener; without a drag nothing happens. */
  function HandleTouchUp(st: State, x: int, y: int): (r: Reaction)
    ensures !st.dragging ==> r == Reaction(st, Quiet)
    ensures st.dragging ==>
      var lo, hi, pointer := st.paneSizeMin, MaxPosition(st), Along(st.orientation, x, y);
      && r.notice == Changed(true)
      && !r.state.dragging && !r.state.movingSplitter
      && r.state.percent == UNSET_PERCENT < 0.0
      && r.state.position == Clamp(pointer, lo, hi)
      && (lo <= hi ==> Between(r.state.position, lo, hi))
      && (Between(pointer, lo, hi) ==> r.state.position == pointer)
      && r.state.(dragging := st.dragging, movingSplitter := st.movingSplitter,
                  position := st.position, percent := st.percent) == st
  {
    if !st.dragging then Reaction(st, Quiet)
    else
      var pointer := Along(st.orientation, x, y);
      var committed := st.(dragging := false, movingSplitter := false,
                           position := Clamp(pointer, st.paneSizeMin, MaxPosition(st)),
                           percent := UNSET_PERCENT);
      Reaction(committed, Changed(true))
  }

  /** onTouchEvent: a widget whose splitter is not movable ignores touches;
      otherwise down, move and up go to their handlers and every other
      action is ignored. Only a release can change the committed position. */
  function OnTouchEvent(st: State, e: TouchEvent): (r: Reaction)
    ensures !st.movable ==> r == Reaction(st, Quiet)
    ensures r.notice != Quiet ==> e.Up? && st.movable && st.dragging
    ensures !e.Up? ==> SameCommitted(r.state, st) && r.notice == Quiet
    ensures r.state.movable == st.movable && r.state.orientation == st.orientation
    ensures r.state.paneSizeMin == st.paneSizeMin && r.state.measuredWidth == st.measuredWidth
    ensures r.state.measuredHeight == st.measuredHeight
    ensures st.movable && e.Down? && st.touchBounds.Contains(e.x, e.y) ==>
      && r.state.dragging && r.state.draggingBounds == st.splitterBounds
      && r.state.lastTouchX == e.x && r.state.lastTouchY == e.y
    ensures e.Down? && !st.touchBounds.Contains(e.x, e.y) ==> r == Reaction(st, Quiet)
    ensures st.movable && e.Down? ==> r == Reaction(HandleTouchDown(st, e.x, e.y), Quiet)
    ensures st.movable && e.Move? ==> r == Reaction(HandleTouchMove(st, e.x, e.y), Quiet)
    ensures st.movable && e.Up? ==> r == HandleTouchUp(st, e.x, e.y)
    ensures e.Move? && !st.dragging ==> r == Reaction(st, Quiet)
    ensures st.movable && e.Up? && st.dragging ==>
      && r.notice == Changed(true)
      && !r.state.dragging && !r.state.movingSplitter
      && r.state.position == Clamp(Along(st.orientation, e.x, e.y), st.paneSizeMin, MaxPosition(st))
      && r.state.percent == UNSET_PERCENT < 0.0
    ensures e.Up? && !st.dragging ==> r == Reaction(st, Quiet)
    ensures e.OtherAction? ==> r == Reaction(st, Quiet)
  {
    if !st.movable then Reaction(st, Quiet)
    else
      match e
      case Down(x, y) => Reaction(HandleTouchDown(st, x, y), Quiet)
      case Move(x, y) => Reaction(HandleTouchMove(st, x, y), Quiet)
      case Up(x, y) => HandleTouchUp(st, x, y)
      case OtherAction => Reaction(st, Quiet)
  }

  /** The state after a sequence of touch events. */
  function Replay(st: State, events: seq<TouchEvent>): State
    decreases |events|
  {
    if events == [] then st else Replay(OnTouchEvent(st, events[0]).state, events[1..])
  }

  /** The splitterPosition setter: any negative value becomes 0, the percent
      is marked unset and the listener hears of a change not made by the user. */
  function SetSplitterPosition(st: State, value: int): (r: Reaction)
    ensures 0 <= r.state.position
    ensures 0 <= value <= INT_MAX ==> r.state.position == value
    ensures value < 0 ==> r.state.position == 0
    ensures r.state.percent == UNSET_PERCENT < 0.0
    ensures r.notice == Changed(false)
    ensures r.state.(position := st.position, percent := st.percent) == st
  {
    Reaction(st.(position := Clamp(value, 0, INT_MAX), percent := UNSET_PERCENT), Changed(false))
  }

  /** The splitterPositionPercent setter: the pixel position becomes unset
      and the percent is kept within [0, 1]. */
  function SetSplitterPositionPercent(st: State, value: real): (r: Reaction)
    ensures r.state.position == UNSET_POSITION
    ensures 0.0 <= r.state.percent <= 1.0
    ensures 0.0 <= value <= 1.0 ==> r.state.percent == value
    ensures value < 0.0 ==> r.state.percent == 0.0
    ensures 1.0 < value ==> r.state.percent == 1.0
    ensures r.notice == Changed(false)
    ensures r.state.(position := st.position, percent := st.percent) == st
  {
    Reaction(st.(position := UNSET_POSITION, percent := ClampReal(value, 0.0, 1.0)), Changed(false))
  }

  /** The paneSizeMin setter: once the widget has been measured, a position
      the new limits exclude is pulled within them through the position
      setter; otherwise only the minimum changes and nobody is notified. */
  function SetPaneSizeMin(st: State, value: int): (r: Reaction)
    ensures r.state.paneSizeMin == value
    ensures !st.measured ==> r == Reaction(st.(paneSizeMin := value), Quiet)
    ensures r.notice == Quiet ==> r.state == st.(paneSizeMin := value)
    ensures r.notice != Quiet ==> r.notice == Changed(false) && r.state.percent == UNSET_PERCENT < 0.0
    ensures r.state.(position := st.position, percent := st.percent, paneSizeMin := st.paneSizeMin) == st
    ensures st.measured && value <= MaxPosition(st.(paneSizeMin := value)) ==>
      (r.notice != Quiet <==> !Between(st.position, value, MaxPosition(st.(paneSizeMin := value))))
    ensures st.measured ==>
      (r.notice != Quiet <==> Clamp(st.position, value, MaxPosition(st.(paneSizeMin := value))) != st.position)
    ensures st.measured && 0 <= value <= MaxPosition(st.(paneSizeMin := value)) <= INT_MAX ==>
      Between(r.state.position, value, MaxPosition(st.(paneSizeMin := value)))
    ensures r.notice != Quiet ==>
      r.state.position == Clamp(Clamp(st.position, value, MaxPosition(st.(paneSizeMin := value))), 0, INT_MAX)
    ensures r.notice != Quiet && 0 <= value <= MaxPosition(st.(paneSizeMin := value)) <= INT_MAX ==>
      r.state.position == Clamp(st.position, value, MaxPosition(st.(paneSizeMin := value)))
  {
    var limited := st.(paneSizeMin := value);
    if !st.measured then Reaction(limited, Quiet)
    else
      var pulled := Clamp(st.position, value, MaxPosition(limited));
      if pulled != st.position then SetSplitterPosition(limited, pulled)
      else Reaction(limited, Quiet)
  }
}

=== FILE: split_pane_lemmas.dfy ===
/** Properties of the Kotlin splitter engine that relate several entry
    points: what a measure pass settles, how measure and layout fit together,
    and what a drag does and does not change. */
module SplitPaneLemmas {
  import opened Android
  import opened JvmInt
  import opened Results
  import opened SplitPane

  /** Both representations are set: a measure pass leaves them alone. */
  predicate Settled(st: State)
  {
    st.position != UNSET_POSITION && 0.0 <= st.percent
  }

  /** The pane limits leave room for the splitter position: both panes may
      reach paneSizeMin at once. */
  predicate SaneLimits(st: State)
  {
    0 <= st.paneSizeMin && 2 * st.paneSizeMin <= Extent(st)
  }

  /** Two states with the same measured size, orientation and limits. */
  predicate SameLimits(a: State, b: State)
  {
    && a.orientation == b.orientation
    && a.measuredWidth == b.measuredWidth
    && a.measuredHeight == b.measuredHeight
    && a.paneSizeMin == b.paneSizeMin
  }

  /** A measure pass from a state with at least one representation set
      settles both, and a second pass at the same size changes nothing. */
  lemma ReconcileIdempotent(st: State)
    requires HasMeasuredSize(st) && SaneLimits(st)
    requires !(st.position == UNSET_POSITION && st.percent < 0.0)
    ensures Settled(ComputeSplitterPosition(st))
    ensures ComputeSplitterPosition(ComputeSplitterPosition(st)) == ComputeSplitterPosition(st)
  {
    var once := ComputeSplitterPosition(st);
    var lo, hi, extent := st.paneSizeMin, MaxPosition(st), Extent(st);
    assert (once.position, once.percent) == ReconciledPosition(st);
    if st.position == UNSET_POSITION {
      var derived := PositionFromPercent(st.percent, extent, lo, hi);
      assert (once.position, once.percent) == derived;
      assert lo <= once.position;
      if derived.1 != st.percent {
        assert IsShareOf(derived.1, derived.0, extent);
      }
    } else if st.percent < 0.0 {
      var derived := PercentFromPosition(st.position, extent, lo, hi);
      assert (once.position, once.percent) == derived;
      assert IsShareOf(derived.1, derived.0, extent);
    }
    assert Settled(once);
    SettledPassChangesNothing(once);
  }

  /** A pass over a measured, settled state whose rectangles follow its
      position is the identity. */
  lemma SettledPassChangesNothing(st: State)
    requires HasMeasuredSize(st) && Settled(st) && BoundsFollowPosition(st)
    ensures ComputeSplitterPosition(st) == st
  {
    var r := ComputeSplitterPosition(st);
    assert (r.position, r.percent) == ReconciledPosition(st) == (st.position, st.percent);
    assert BoundsFollowPosition(r);
  }

  /** Whatever the starting state, at most two passes at one size reach a
      state further passes leave unchanged. */
  lemma {:induction false} ReconcileReachesFixpoint(st: State)
    requires HasMeasuredSize(st) && SaneLimits(st)
    ensures var twice := ComputeSplitterPosition(ComputeSplitterPosition(st));
      Settled(twice) && ComputeSplitterPosition(twice) == twice
  {
    var once := ComputeSplitterPosition(st);
    if st.position == UNSET_POSITION && st.percent < 0.0 {
      assert once.position == Extent(st) / 2 >= 0;
      ReconcileIdempotent(once);
    } else {
      ReconcileIdempotent(st);
    }
  }

  /** The percent places the position to within one pixel: the position is
      the percent's share of the extent rounded down. */
  predicate WithinOnePixel(percent: real, position: int, extent: int)
  {
    position as real <= percent * extent as real < position as real + 1.0
  }

  /** When exactly one representation is set, the pass puts the position
      within [paneSizeMin, extent - paneSizeMin], and the stored percent
      places it to within one pixel. */
  lemma ReconciledRepresentationsAgree(st: State)
    requires HasMeasuredSize(st) && SaneLimits(st) && Extent(st) < INT_MAX
    requires (st.position == UNSET_POSITION) != (st.percent < 0.0)
    ensures var r := ComputeSplitterPosition(st);
      && Between(r.position, st.paneSizeMin, MaxPosition(st))
      && WithinOnePixel(r.percent, r.position, Extent(st))
  {
    var r := ComputeSplitterPosition(st);
    var lo, hi, extent := st.paneSizeMin, MaxPosition(st), Extent(st);
    var derived := ReconciledPosition(st);
    assert (r.position, r.percent) == derived;
    if st.position == UNSET_POSITION {
      assert derived == PositionFromPercent(st.percent, extent, lo, hi);
      PositionFromPercentAgrees(st.percent, extent, lo, hi);
    } else {
      assert derived == PercentFromPosition(st.position, extent, lo, hi);
      PercentFromPositionAgrees(st.position, extent, lo, hi);
    }
  }

  /** The percent branch of the pass yields a position within the limits
      that the resulting percent places to within one pixel. */
  lemma PositionFromPercentAgrees(percent: real, extent: int, lo: int, hi: int)
    requires 0 < extent < INT_MAX && 0.0 <= percent && 0 <= lo <= hi <= extent
    ensures var r := PositionFromPercent(percent, extent, lo, hi);
      Between(r.0, lo, hi) && WithinOnePixel(r.1, r.0, extent)
  {
    var r := PositionFromPercent(percent, extent, lo, hi);
    var x := extent as real * percent;
    var p := FloatToInt(x);
    if Between(p, lo, hi) {
      ScaleNonNegative(extent, percent);
      assert p != INT_MAX;
      assert p as real <= x < p as real + 1.0;
    } else {
      assert IsShareOf(r.1, r.0, extent);
    }
  }

  /** A position within the extent is at most the whole of it. */
  lemma ShareAtMostOne(p: int, extent: int)
    requires 0 <= p <= extent && 0 < extent
    ensures PercentOf(p, extent) <= 1.0
  {
    var e := extent as real;
    assert p as real / e <= e / e;
  }

  /** A non-negative share of a non-negative extent is not negative. */
  lemma ScaleNonNegative(extent: int, percent: real)
    requires 0 <= extent && 0.0 <= percent
    ensures 0.0 <= extent as real * percent
  {
  }

  /** The position branch of the pass yields a position within the limits
      whose share of the extent is exactly the resulting percent. */
  lemma PercentFromPositionAgrees(position: int, extent: int, lo: int, hi: int)
    requires 0 < extent && lo <= hi
    ensures var r := PercentFromPosition(position, extent, lo, hi);
      Between(r.0, lo, hi) && IsShareOf(r.1, r.0, extent) && WithinOnePixel(r.1, r.0, extent)
  {
  }

  /** A position pulled within the limits with the percent unset, as a key
      press, a release or the position setter leave it, survives the next
      measure pass, which derives the percent from it. */
  lemma CommittedPositionSurvivesPass(st: State)
    requires HasMeasuredSize(st)
    requires st.position != UNSET_POSITION && st.percent < 0.0
    requires Between(st.position, st.paneSizeMin, MaxPosition(st))
    ensures var r := ComputeSplitterPosition(st);
      && r.position == st.position
      && IsShareOf(r.percent, st.position, Extent(st))
      && r.splitterBounds.Center(st.orientation) == st.position
  {
    var r := ComputeSplitterPosition(st);
    var derived := PercentFromPosition(st.position, Extent(st), st.paneSizeMin, MaxPosition(st));
    assert (r.position, r.percent) == derived;
    assert derived.0 == st.position;
  }

  /** The release of a drag commits a position the measure pass it forces
      keeps, with the splitter drawn centred on it. */
  lemma CommitSurvivesRemeasure(st: State, x: int, y: int)
    requires st.dragging && HasMeasuredSize(st) && SaneLimits(st)
    ensures var committed := HandleTouchUp(st, x, y).state;
      var next := Remeasure(committed, REQUIRED_CHILDREN);
      && next.Ok? && next.value.Sized?
      && next.value.state.position == committed.position
      && Between(committed.position, st.paneSizeMin, MaxPosition(st))
      && IsShareOf(next.value.state.percent, committed.position, Extent(st))
      && next.value.state.splitterBounds.Center(st.orientation) == committed.position
  {
    var committed := HandleTouchUp(st, x, y).state;
    assert SameLimits(committed, st);
    assert Between(committed.position, st.paneSizeMin, MaxPosition(st));
    RemeasureKeepsCommittedPosition(committed);
  }

  /** The measure pass remeasure() forces keeps a position pulled within the
      limits with the percent unset, and derives the percent from it. */
  lemma RemeasureKeepsCommittedPosition(st: State)
    requires HasMeasuredSize(st)
    requires st.position != UNSET_POSITION && st.percent < 0.0
    requires Between(st.position, st.paneSizeMin, MaxPosition(st))
    ensures var next := Remeasure(st, REQUIRED_CHILDREN);
      && next.Ok? && next.value.Sized?
      && next.value.state.position == st.position
      && IsShareOf(next.value.state.percent, st.position, Extent(st))
      && next.value.state.splitterBounds.Center(st.orientation) == st.position
  {
    var next := Remeasure(st, REQUIRED_CHILDREN);
    assert st.(measuredWidth := st.measuredWidth, measuredHeight := st.measuredHeight) == st;
    assert next.value.state == ComputeSplitterPosition(st).(measured := true);
    CommittedPositionSurvivesPass(st);
  }

  /** Likewise for a directional key press. */
  lemma KeyStepSurvivesRemeasure(st: State, keyCode: int, shiftPressed: bool)
    requires HasMeasuredSize(st) && SaneLimits(st)
    requires KeyDirection(st.orientation, keyCode) != 0
    ensures var stepped := OnKeyDown(st, keyCode, shiftPressed).state;
      var next := Remeasure(stepped, REQUIRED_CHILDREN);
      && next.Ok? && next.value.Sized?
      && next.value.state.position == stepped.position
      && IsShareOf(next.value.state.percent, stepped.position, Extent(st))
  {
    var reaction := OnKeyDown(st, keyCode, shiftPressed);
    assert reaction.notice != Quiet;
    var stepped := reaction.state;
    assert stepped.percent < 0.0;
    assert SameLimits(stepped, st);
    assert Between(stepped.position, st.paneSizeMin, MaxPosition(st));
    RemeasureKeepsCommittedPosition(stepped);
    assert Extent(stepped) == Extent(st);
  }

  /** Without wrap-around, a key press moves the splitter toward the key's
      side by at most one step, and never past its starting point. */
  lemma KeyStepDirection(st: State, keyCode: int, shiftPressed: bool)
    requires Between(st.position, st.paneSizeMin, MaxPosition(st))
    requires var step := KeyStep(st.splitterSize, shiftPressed);
      0 <= step && IsInt(st.position - step) && IsInt(st.position + step)
    ensures var step, r := KeyStep(st.splitterSize, shiftPressed), OnKeyDown(st, keyCode, shiftPressed).state;
      && (KeyDirection(st.orientation, keyCode) < 0 ==> st.position - step <= r.position <= st.position)
      && (KeyDirection(st.orientation, keyCode) > 0 ==> st.position <= r.position <= st.position + step)
  {
  }

  /** Measure and layout agree: after a pass at the laid-out size, the first
      pane runs from the origin to the splitter, the second from the
      splitter to the far edge, each as long as the size it was measured at. */
  lemma LayoutTilesView(st: State, left: int, top: int, right: int, bottom: int)
    requires 0 < right - left && 0 < bottom - top
    ensures var m := OnMeasure(st, REQUIRED_CHILDREN, right - left, bottom - top);
      && m.Ok? && m.value.Sized?
      && var s, o := m.value.state, st.orientation;
         var p := Layout(s, left, top, right, bottom);
         && p.first.Start(o) == 0
         && p.first.End(o) == s.splitterBounds.Start(o)
         && s.splitterBounds.End(o) == p.second.Start(o)
         && p.second.End(o) == Along(o, right - left, bottom - top)
         && p.first.Span(o) == m.value.first.AlongSize(o)
         && p.second.Span(o) == m.value.second.AlongSize(o)
  {
  }

  /** The layout as written matches the corrected one for a widget at its
      parent's origin. */
  lemma LayoutAsWrittenAgreesAtOrigin(st: State, top: int, right: int, bottom: int)
    ensures LayoutAsWritten(st, 0, top, right, bottom) == Layout(st, 0, top, right, bottom)
  {
  }

  /** As written, a horizontal widget not at its parent's left edge gives
      its second pane a right edge other than its own width. */
  lemma LayoutAsWrittenOverhangs(st: State, left: int, top: int, right: int, bottom: int)
    requires st.orientation.Horizontal? && left != 0
    ensures LayoutAsWritten(st, left, top, right, bottom).second.right != right - left
    ensures LayoutAsWritten(st, left, top, right, bottom).second != Layout(st, left, top, right, bottom).second
  {
  }

  /** A 1000 x 500 widget placed at x = 100 with the splitter at 500: the
      second pane is laid out over [504, 1100), 100 pixels past its width. */
  lemma LayoutAsWrittenExample()
    ensures var st := INITIAL.(position := 500);
      && LayoutAsWritten(st, 100, 0, 1100, 500).second == Rect(504, 0, 1100, 500)
      && Layout(st, 100, 0, 1100, 500).second == Rect(504, 0, 1000, 500)
  {
  }

  /** Touch events other than a release leave the committed position, the
      percent and the splitter's rectangles untouched. */
  lemma {:induction false} DragWithoutReleaseKeepsCommitted(st: State, events: seq<TouchEvent>)
    requires forall i :: 0 <= i < |events| ==> !events[i].Up?
    ensures SameCommitted(Replay(st, events), st)
    decreases |events|
  {
    if events != [] {
      DragWithoutReleaseKeepsCommitted(OnTouchEvent(st, events[0]).state, events[1..]);
    }
  }

  /** Once the splitter is moving, every pointer move keeps the dragging
      rectangle's centre within the pane limits. */
  lemma {:induction false} DragCentreStaysWithinLimits(st: State, events: seq<TouchEvent>)
    requires st.movable && st.dragging && st.movingSplitter
    requires st.paneSizeMin <= MaxPosition(st)
    requires Between(st.draggingBounds.Center(st.orientation), st.paneSizeMin, MaxPosition(st))
    requires forall i :: 0 <= i < |events| ==> events[i].Move?
    ensures var r := Replay(st, events);
      && r.dragging && r.movingSplitter
      && Between(r.draggingBounds.Center(st.orientation), st.paneSizeMin, MaxPosition(st))
    decreases |events|
  {
    if events != [] {
      var next := OnTouchEvent(st, events[0]).state;
      assert MaxPosition(next) == MaxPosition(st);
      DragCentreStaysWithinLimits(next, events[1..]);
    }
  }

  /** The splitter position setter followed by the percent setter with the
      position's share of the extent: the next pass restores the position. */
  lemma PercentOfPositionRestoresPosition(st: State, p: int)
    requires HasMeasuredSize(st) && 0 <= p <= Extent(st) && p < INT_MAX
    requires Between(p, st.paneSizeMin, MaxPosition(st))
    ensures var share := PercentOf(p, Extent(st));
      ComputeSplitterPosition(SetSplitterPositionPercent(st, share).state).position == p
  {
    var extent := Extent(st);
    var share := PercentOf(p, extent);
    ShareRestoresPosition(p, extent);
    var chosen := SetSplitterPositionPercent(st, share).state;
    assert chosen.percent == share && chosen.position == UNSET_POSITION;
    assert SameLimits(chosen, st);
    var r := ComputeSplitterPosition(chosen);
    assert (r.position, r.percent) == ReconciledPosition(chosen);
    assert ReconciledPosition(chosen) == PositionFromPercent(share, extent, st.paneSizeMin, MaxPosition(st));
  }

  /** The splitter position setter with a position within the limits,
      followed by the measure pass it forces: the splitter stays at that
      position and the percent becomes its share of the extent. */
  lemma PositionSetterSurvivesRemeasure(st: State, value: int)
    requires HasMeasuredSize(st) && 0 <= value <= INT_MAX
    requires Between(value, st.paneSizeMin, MaxPosition(st))
    ensures var chosen := SetSplitterPosition(st, value).state;
      var next := Remeasure(chosen, REQUIRED_CHILDREN);
      && next.Ok? && next.value.Sized?
      && next.value.state.position == value
      && IsShareOf(next.value.state.percent, value, Extent(st))
      && next.value.state.splitterBounds.Center(st.orientation) == value
  {
    var chosen := SetSplitterPosition(st, value).state;
    assert chosen.position == value && chosen.percent < 0.0;
    assert SameLimits(chosen, st);
    RemeasureKeepsCommittedPosition(chosen);
    assert Extent(chosen) == Extent(st);
  }

  /** The paneSizeMin setter on a measured widget, followed by the measure
      pass: whether or not the setter had to move the splitter, the pass
      leaves it at the old position pulled within the new limits. */
  lemma PaneSizeMinSurvivesRemeasure(st: State, value: int)
    requires st.measured && HasMeasuredSize(st)
    requires 0 <= value <= MaxPosition(st.(paneSizeMin := value)) <= INT_MAX
    ensures var chosen := SetPaneSizeMin(st, value).state;
      var next := Remeasure(chosen, REQUIRED_CHILDREN);
      && next.Ok? && next.value.Sized?
      && next.value.state.position == Clamp(st.position, value, MaxPosition(chosen))
      && Between(next.value.state.position, value, MaxPosition(chosen))
  {
    var limited := st.(paneSizeMin := value);
    var reaction := SetPaneSizeMin(st, value);
    var chosen := reaction.state;
    assert MaxPosition(chosen) == MaxPosition(limited);
    if reaction.notice != Quiet {
      assert chosen.position == Clamp(st.position, value, MaxPosition(limited));
      RemeasureKeepsCommittedPosition(chosen);
    } else {
      assert chosen == limited;
      assert Between(st.position, value, MaxPosition(limited));
      var next := Remeasure(chosen, REQUIRED_CHILDREN);
      assert next.value.state == ComputeSplitterPosition(chosen).(measured := true);
      if chosen.percent < 0.0 {
        CommittedPositionSurvivesPass(chosen);
      }
    }
  }

  /** A position's share of the extent lies in [0, 1] and converts back to
      exactly that position. */
  lemma ShareRestoresPosition(p: int, extent: int)
    requires 0 <= p <= extent && 0 < extent && p < INT_MAX
    ensures 0.0 <= PercentOf(p, extent) <= 1.0
    ensures FloatToInt(extent as real * PercentOf(p, extent)) == p
  {
    var share := PercentOf(p, extent);
    assert extent as real * share == p as real;
    ShareAtMostOne(p, extent);
  }

  /** A drag on a 1000 x 600 widget with default settings: the first pass
      puts the splitter at 500; a press at 500 and a move to 620 leave it
      there while the dragging rectangle follows; the release commits 620
      and the next pass derives the percent 0.62. */
  lemma DragExample()
    ensures var m := OnMeasure(INITIAL, REQUIRED_CHILDREN, 1000, 600);
      && m.Ok? && m.value.Sized?
      && m.value.state.position == 500
      && m.value.state.splitterBounds == Rect(496, 0, 504, 600)
      && var dragged := Replay(m.value.state, [Down(500, 300), Move(620, 300)]);
         && dragged.position == 500
         && dragged.draggingBounds == Rect(616, 0, 624, 600)
         && var released := OnTouchEvent(dragged, Up(620, 300));
            && released.state.position == 620
            && released.notice == Changed(true)
            && var again := Remeasure(released.state, REQUIRED_CHILDREN);
               again.Ok? && again.value.state.percent == 0.62
  {
    var s := ExampleMeasure();
    var down := ExampleDown(s);
    var moved := ExampleMove(down);
    ReplayTwo(s, Down(500, 300), Move(620, 300));
    ExampleRelease(moved);
  }

  /** Replaying two events is handling one after the other. */
  lemma ReplayTwo(st: State, a: TouchEvent, b: TouchEvent)
    ensures Replay(st, [a, b]) == OnTouchEvent(OnTouchEvent(st, a).state, b).state
  {
    var first := OnTouchEvent(st, a).state;
    assert [a, b][1..] == [b];
    assert Replay(st, [a, b]) == Replay(first, [b]);
    assert [b][1..] == [];
    assert Replay(first, [b]) == Replay(OnTouchEvent(first, b).state, []);
  }

  /** The first measure pass of the drag example. */
  lemma ExampleMeasure() returns (s: State)
    ensures var m := OnMeasure(INITIAL, REQUIRED_CHILDREN, 1000, 600);
      m.Ok? && m.value.Sized? && m.value.state == s
    ensures s == INITIAL.(measuredWidth := 1000, measuredHeight := 600, position := 500,
                          splitterBounds := Rect(496, 0, 504, 600),
                          touchBounds := Rect(496, 0, 504, 600), measured := true)
  {
    var sized := INITIAL.(measuredWidth := 1000, measuredHeight := 600);
    assert FloatToInt(1000.0 * 0.5) == 500;
    assert ReconciledPosition(sized) == (500, 0.5);
    assert SplitterRect(Horizontal, 500, 8, 1000, 600) == Rect(496, 0, 504, 600);
    s := ComputeSplitterPosition(sized).(measured := true);
  }

  /** The press at 500 lands in the grab area and starts a drag. */
  lemma ExampleDown(s: State) returns (down: State)
    requires s == INITIAL.(measuredWidth := 1000, measuredHeight := 600, position := 500,
                           splitterBounds := Rect(496, 0, 504, 600),
                           touchBounds := Rect(496, 0, 504, 600), measured := true)
    ensures OnTouchEvent(s, Down(500, 300)).state == down
    ensures down == s.(dragging := true, draggingBounds := Rect(496, 0, 504, 600),
                       lastTouchX := 500, lastTouchY := 300)
  {
    assert s.touchBounds.Contains(500, 300);
    down := HandleTouchDown(s, 500, 300);
  }

  /** The move to 620 leaves the grab area, so the dragging rectangle
      follows the pointer by 120 pixels. */
  lemma ExampleMove(down: State) returns (moved: State)
    requires down.orientation == Horizontal && down.movable && down.dragging && !down.movingSplitter
    requires down.touchBounds == Rect(496, 0, 504, 600) && down.draggingBounds == Rect(496, 0, 504, 600)
    requires down.lastTouchX == 500 && down.lastTouchY == 300
    requires down.paneSizeMin == 0 && down.measuredWidth == 1000
    ensures OnTouchEvent(down, Move(620, 300)).state == moved
    ensures moved.draggingBounds == Rect(616, 0, 624, 600)
    ensures moved.lastTouchX == 620 && moved.lastTouchY == 300
    ensures moved.dragging && moved.movingSplitter
    ensures moved.movable && moved.orientation == Horizontal && moved.position == down.position
    ensures moved.paneSizeMin == 0 && moved.measuredWidth == 1000 && moved.measuredHeight == down.measuredHeight
  {
    assert !down.touchBounds.Contains(620, 300);
    assert Along(Horizontal, 620 - 500, 300 - 300) == 120;
    ExampleShift(down.draggingBounds);
    ExampleShiftCenter(down.draggingBounds);
    ExampleLimit(down);
    MoveGoesToHandler(down, 620, 300);
    moved := HandleTouchMove(down, 620, 300);
    MoveFollowsPointer(down, 620, 300);
  }

  /** The dragging rectangle of the example, 120 pixels to the right. */
  lemma ExampleShift(b: Rect)
    requires b == Rect(496, 0, 504, 600)
    ensures b.Shift(Horizontal, 120) == Rect(616, 0, 624, 600)
  {
    var r := b.Shift(Horizontal, 120);
    assert r.left == 616 && r.top == 0 && r.right == 624 && r.bottom == 600;
  }

  /** Its centre is at the pointer. */
  lemma ExampleShiftCenter(b: Rect)
    requires b == Rect(496, 0, 504, 600)
    ensures b.Shift(Horizontal, 120).Center(Horizontal) == 620
  {
  }

  /** The example's limits: the splitter may go anywhere in [0, 1000]. */
  lemma ExampleLimit(st: State)
    requires st.orientation == Horizontal && st.paneSizeMin == 0 && st.measuredWidth == 1000
    ensures MaxPosition(st) == 1000
  {
  }

  /** A move of a drag that has left the grab area, to a point whose
      dragging rectangle keeps its centre within the limits, moves the
      rectangle by the pointer's travel along the axis and takes the point
      as the new anchor; nothing else changes. */
  lemma MoveFollowsPointer(st: State, x: int, y: int)
    requires st.dragging && (st.movingSplitter || !st.touchBounds.Contains(x, y))
    requires var o := st.orientation;
      Between(st.draggingBounds.Shift(o, Along(o, x - st.lastTouchX, y - st.lastTouchY)).Center(o),
              st.paneSizeMin, MaxPosition(st))
    ensures var o := st.orientation;
      HandleTouchMove(st, x, y) == st.(movingSplitter := true,
        draggingBounds := st.draggingBounds.Shift(o, Along(o, x - st.lastTouchX, y - st.lastTouchY)),
        lastTouchX := x, lastTouchY := y)
  {
  }

  /** A move on a movable widget is handled by handleTouchMove alone. */
  lemma MoveGoesToHandler(st: State, x: int, y: int)
    requires st.movable
    ensures OnTouchEvent(st, Move(x, y)) == Reaction(HandleTouchMove(st, x, y), Quiet)
  {
  }

  /** The release at 620 commits 620 and the next pass derives 0.62. */
  lemma ExampleRelease(moved: State)
    requires moved.orientation == Horizontal && moved.movable && moved.dragging
    requires moved.paneSizeMin == 0 && moved.measuredWidth == 1000 && moved.measuredHeight == 600
    ensures var released := OnTouchEvent(moved, Up(620, 300));
      && released.state.position == 620
      && released.notice == Changed(true)
      && var again := Remeasure(released.state, REQUIRED_CHILDREN);
         again.Ok? && again.value.state.percent == 0.62
  {
    var released := HandleTouchUp(moved, 620, 300);
    assert MaxPosition(moved) == 1000;
    assert released.state.position == 620 && released.state.percent < 0.0;
    assert released.state.measuredWidth == 1000 && released.state.measuredHeight == 600;
    assert released.state.orientation == Horizontal && released.state.paneSizeMin == 0;
    assert ReconciledPosition(released.state) == PercentFromPosition(620, 1000, 0, 1000);
    assert PercentOf(620, 1000) == 0.62;
  }
}
